=== FILE: README.md ===
# StoryTeller in Dafny

A Dafny model of the logic of StoryTeller, a browser-based reader for interactive fiction. The model covers:

- **Narrative style.** NarrativeStyle's pronoun rewrite, guarded by a prefix check. StoryReader keeps its own copy of the same rewrite.
- **Story catalog.** StoryReader's six built-in story graphs, with segments, choices and endings.
- **Reader session.** Mounting on a story and segment, loading segments, recording choices, completing a story, and which buttons each view offers.
- **Story page.** StoryInterface reads saved progress at mount and opens the reader there or at "start". It saves progress on request and clears it when the reader reports completion.
- **Story card.** StoryCard opens a story only when it is not completed. For a completed story it offers "Start Over", which needs confirmation and removes the completion flag.
- **AI storyteller.** AIStoryTeller's chat history around one story request: the theme tag read from the reply and stripped out of it, the error bubbles, and the play/pause flag of the narration.
- **Feature-flag page.** FeatureFlagDemo's card titles, its configuration check, the search for the feature list in a JSON response and the lookup of one feature, and the local map of flag values it keeps across toggles.

The reader takes its catalog as a parameter. General lemmas assume only a well-formed catalog, and the application's catalog, `Catalog.Catalog`, is proved well formed and plugged in (`Reader.CatalogPlaythrough`). Browser storage is an explicit `Store` (a `map<string, string>`). The flag provider's `hasFeature` is a function argument or a `bool` parameter. The outcome of every network request is a parameter: `Reply` for the story request; the response body `Json`, `Server` and the recovered state for a flag toggle.

Modules, one per file:

- `wrappers.dfy`: `Wrappers` (`Option`, `Result`)
- `text.dfy`: `Text`. It holds global literal replacement as `String.prototype.replace` with a `/g` literal pattern performs it, and JavaScript `trim`.
- `narrative.dfy`: `Narrative`
- `catalog.dfy`: `Catalog`
- `storage.dfy`: `Storage`
- `reader.dfy`: `Reader`
- `story_interface.dfy`: `Interface`
- `story_card.dfy`: `Card`
- `story_teller.dfy`: `StoryTeller`
- `feature_flags.dfy`: `Flags`

Behaviour of the code worth knowing when reading the model:

- **Order of the rewrites.** The two substitutions of a style are chained: the second `replace` runs on the output of the first. The model chains them too. `Narrative.FirstPersonNoResidue` and `Narrative.ThirdPersonNoResidue` show that after both steps neither pronoun of the style is left.
- **Literal substitution.** Only the pronouns with their trailing space are replaced, so "I am brave and My sword is sharp." becomes "You am brave and Your sword is sharp." in third person; verbs are not changed.
- **Start over.** `handleStartOverConfirm` removes only the completion flag; saved progress stays (`Card.ConfirmStartOver`, `Card.StartOverKeepsProgress`). After a completion there is no saved progress anyway, because `handleStoryComplete` removed it (`Card.RestartAfterFinish`).
- **Catalog.** The code never checks the built-in catalog. The model proves it well formed instead (`Catalog.CatalogIsWellFormed`).
- **Completing twice.** Once a session is completed, its Complete button is rendered disabled, so completion is reported once (`Reader.CompleteFiresOnce`).
- **Feature under the empty key.** The fallback search keeps the key `find` returns and then tests it for truth, so a first named member stored under `""` is rejected and the response counts as unrecognised (`Flags.NamedList`, `Flags.EmptyKeyRejected`).
- **Toggling a flag.** On success the handler writes the server-confirmed value, but its call to `refreshFlags` re-renders the flag provider, and the page's init effect then rebuilds every local flag from the refreshed SDK (`Flags.Settled`, `Flags.RefreshOverridesConfirmed`).

## Model

| member | source | states |
|---|---|---|
| Text.ReplaceAll | src/components/stories/NarrativeStyle.tsx:21-22 | a replacement no longer than its pattern never lengthens the text, and one no shorter never shortens it |
| Text.ReplaceAllLength | src/components/stories/NarrativeStyle.tsx:21-22 | the result's length is the input's plus, per replaced occurrence, the difference between replacement and pattern lengths |
| Text.NoResidue | src/components/stories/NarrativeStyle.tsx:21-29 | when the replacement cannot take part in an occurrence of q, q does not occur in the result, whether q is the pattern itself or a string absent from the input |
| Text.ReplaceAbsent | src/components/stories/NarrativeStyle.tsx:21-22 | replacing a pattern that does not occur leaves the text unchanged |
| Text.Trim | src/components/stories/AIStoryTeller.tsx:63 | the result is the slice of the input between an all-whitespace head and an all-whitespace tail; it is empty exactly when the input is all whitespace, and a non-empty result starts and ends with a non-whitespace character |
| Text.TrimPieces | src/components/stories/AIStoryTeller.tsx:63 | cutting a blank head and then a blank tail leaves a slice of the input between blank ends, empty only for an all-whitespace input |
| Text.ReplaceCharPointwise | src/components/feature-flags/FeatureFlagDemo.tsx:330 | replacing one character by another maps every occurrence and keeps every other character, at the same length |
| Text.TrimKeeps | src/components/stories/AIStoryTeller.tsx:109 | a text with no whitespace at either end is its own trim |
| Reader.Restyle | src/components/stories/StoryReader.tsx:414-420 | text already starting in the target voice is kept; otherwise none of the pronouns the style replaces is left |
| Narrative.StyleOf | src/components/stories/StoryReader.tsx:392-393 | the style is first person exactly when the flag is on |
| Narrative.Transform | src/components/stories/NarrativeStyle.tsx:17-35 | text starting with "I" is kept when the first-person flag is on, and text starting with "You" when it is off; first person never lengthens the text and third person never shortens it; empty stays empty |
| Narrative.FirstPersonNoResidue | src/components/stories/NarrativeStyle.tsx:20-23 | after the first-person rewrite neither "You " nor "Your " occurs |
| Narrative.ThirdPersonNoResidue | src/components/stories/NarrativeStyle.tsx:27-30 | after the third-person rewrite neither "I " nor "My " occurs |
| Narrative.TransformNoResidue | src/components/stories/NarrativeStyle.tsx:17-35 | whenever the guard lets a rewrite run, none of the pronouns it replaces is left |
| Narrative.FirstPersonLength | src/components/stories/NarrativeStyle.tsx:21-22 | each first-person replacement shortens the text by exactly two characters |
| Narrative.ThirdPersonLength | src/components/stories/NarrativeStyle.tsx:28-29 | each third-person replacement lengthens the text by exactly two characters |
| Narrative.TransformIdempotent | src/components/stories/NarrativeStyle.tsx:17-35 | applying the transform twice with the same flag gives the same text as applying it once |
| Catalog.Story1WellFormed | src/components/stories/StoryReader.tsx:44-135 | "story-1" has a start segment; every segment's id is its key, it has choices exactly when it is not an ending, its choice ids are distinct and every choice target exists |
| Catalog.Story2WellFormed | src/components/stories/StoryReader.tsx:136-188 | the same for "story-2" |
| Catalog.Story3WellFormed | src/components/stories/StoryReader.tsx:189-241 | the same for "story-3" |
| Catalog.Story4WellFormed | src/components/stories/StoryReader.tsx:242-288 | the same for "story-4" |
| Catalog.Story5WellFormed | src/components/stories/StoryReader.tsx:289-341 | the same for "story-5" |
| Catalog.Story6WellFormed | src/components/stories/StoryReader.tsx:342-388 | the same for "story-6" |
| Catalog.CatalogIsWellFormed | src/components/stories/StoryReader.tsx:43-389 | every story of the catalog is well formed, so no choice dangles and no segment is a dead end |
| Catalog.Story1StartChoices | src/components/stories/StoryReader.tsx:45-53 | "story-1" opens with choice-1 to "dark-path" and choice-2 to "glowing-path" |
| Storage.Get | src/components/stories/StoryInterface.tsx:22 | a read yields a value exactly when the key is stored, and then the stored value |
| Storage.IsCompleted | src/components/stories/StoryCard.tsx:26 | a story is completed exactly when its completion key holds the string "true" |
| Storage.KeysDistinct | src/components/stories/StoryInterface.tsx:22-32 | a progress key is never a completion key, and two stories share neither kind of key |
| Storage.OtherStoriesUntouched | src/components/stories/StoryInterface.tsx:64-66 | a change confined to one story's keys leaves every other story's progress and completion keys as they were |
| Reader.RestyleAgrees | src/components/stories/StoryReader.tsx:414-420 | the reader's copy of the rewrite is NarrativeStyle's transform for the session's style |
| Reader.Lookup | src/components/stories/StoryReader.tsx:408-409 | an unknown story and an unknown segment both give no segment; otherwise the catalog's segment under that id |
| Reader.Display | src/components/stories/StoryReader.tsx:411-425 | the shown segment keeps id, choices, theme and ending flag; only its content is rewritten |
| Reader.Load | src/components/stories/StoryReader.tsx:404-432 | loading changes only the current segment: the not-found view exactly when the lookup fails, else the displayed catalog segment |
| Reader.Mount | src/components/stories/StoryReader.tsx:391-402 | a mounted reader has no choices yet, is completed exactly when the stored flag is "true", shows the not-found view exactly when the story or initial segment is unknown, and otherwise shows that segment restyled |
| Reader.Choose | src/components/stories/StoryReader.tsx:434-437 | a choice appends its id to the recorded choices and shows its target restyled, or the not-found view when the target is missing; nothing else changes |
| Reader.Complete | src/components/stories/StoryReader.tsx:439-443 | completing stores "true" under the story's completion key only, marks the session completed and passes exactly the recorded choices on |
| Reader.Buttons | src/components/stories/StoryReader.tsx:453-523 | the not-found view offers only Return; an ending offers Complete, disabled once completed, and Return; any other segment offers its own choices, in order |
| Reader.Press | src/components/stories/StoryReader.tsx:453-523 | only an enabled Complete reports completion, stores the flag and marks the session; Return alone reports leaving; a choice records its id and shows what choosing that option shows; nothing but Complete touches storage, and a disabled button changes nothing |
| Reader.PressKeepsCompleted | src/components/stories/StoryReader.tsx:489-498 | no button press turns completion off or changes the story |
| Reader.CompleteFiresOnce | src/components/stories/StoryReader.tsx:489-498 | on an uncompleted ending, Complete is offered, reports the choices and stores the flag; afterwards no offered button reports completion again |
| Reader.LoadConsistent | src/components/stories/StoryReader.tsx:404-432 | in a well-formed catalog a loaded session always shows the displayed form of the catalog segment with the same id |
| Reader.ChooseOfferedFound | src/components/stories/StoryReader.tsx:434-437 | in a well-formed catalog, following a choice the current segment offers always reaches an existing segment |
| Reader.PlayStaysFound | src/components/stories/StoryReader.tsx:434-437 | in a well-formed catalog, a reader following only offered choices never reaches the not-found view, and records exactly the ids it followed, in order |
| Reader.MountStartFound | src/components/stories/StoryReader.tsx:391-402 | every story of a well-formed catalog mounted at "start" shows a segment consistent with the catalog |
| Reader.CatalogPlaythrough | src/components/stories/StoryReader.tsx:43-437 | every story of the application's catalog opens on a segment, and no playthrough along offered choices reaches the not-found view |
| Reader.UnknownStoryNotFound | src/components/stories/StoryReader.tsx:408-409 | a story id outside the catalog shows the not-found view with only a Return button |
| Reader.DefaultStoryNotInCatalog | src/components/stories/StoryInterface.tsx:93 | the fallback id "default-story" is not a catalog story |
| Reader.Story1Shows | src/components/stories/StoryReader.tsx:44-135 | mounting "story-1" at any of its segments shows that segment, restyled |
| Reader.Story1Opening | src/components/stories/StoryReader.tsx:45-62 | "story-1" opens on two choices, choice-1 and choice-2; taking choice-1 shows "dark-path" and records ["choice-1"] |
| Reader.RenderedTextStable | src/components/stories/StoryReader.tsx:486 | NarrativeStyle's second rewrite of the reader's already rewritten content leaves it unchanged |
| Interface.ReaderStoryId | src/components/stories/StoryInterface.tsx:93 | the reader gets the route parameter, or "default-story" when it is missing or empty |
| Interface.SavedProgress | src/components/stories/StoryInterface.tsx:21-26 | the progress loaded at mount is the stored value under the page's progress key, and only when it is present and non-empty |
| Interface.ProgressOrStart | src/components/stories/StoryInterface.tsx:94 | the reader starts at the loaded progress when non-empty, else at "start" |
| Interface.KeyStoryId | src/components/stories/StoryInterface.tsx:22 | the storage keys use the parameter as given, "undefined" when it is missing, and then never the reader's "default-story" |
| Interface.Open | src/components/stories/StoryInterface.tsx:14-96 | progress is read under the key the page renders ("story-progress-undefined" for a missing parameter) and kept only when non-empty; the reader mounts on the parameter, or "default-story", at that progress or "start", without choices, completed exactly when its own story's flag is "true", and shows that catalog segment restyled or the not-found view |
| Interface.SaveProgress | src/components/stories/StoryInterface.tsx:28-32 | saving stores the loaded progress or "start" under the page's progress key and no other key changes |
| Interface.SaveIgnoresReader | src/components/stories/StoryInterface.tsx:28-32 | what is saved does not depend on where the reader is now, and saving twice stores the same as saving once |
| Interface.FinishStory | src/components/stories/StoryInterface.tsx:64-66 | finishing marks the reader completed, sets its story's flag, removes the page's progress key, changes no other key and reports the reader's choices |
| Interface.ClearProgress | src/components/stories/StoryInterface.tsx:64-66 | completion removes the page's progress key and no other key changes |
| Interface.FinishStoryStores | src/components/stories/StoryInterface.tsx:64-66 | after the reader completes and the page clears progress, the completion flag is "true", the progress key is absent, only that story's keys changed and the choices are reported |
| Interface.ResumeAtSaved | src/components/stories/StoryInterface.tsx:20-26 | the page resumes at the stored progress when present and non-empty, else at "start" |
| Interface.MissingParamNotFound | src/components/stories/StoryInterface.tsx:93 | a missing or empty route parameter opens the not-found view when the catalog has no "default-story" |
| Card.ClickCard | src/components/stories/StoryCard.tsx:26-32 | a card click opens the story's page exactly when the story is not completed |
| Card.ClickStartOver | src/components/stories/StoryCard.tsx:66-72 | "Start Over" opens the popup of the same card, leaves storage untouched and navigates nowhere |
| Card.ConfirmStartOver | src/components/stories/StoryCard.tsx:38-42 | confirming removes the completion flag and no other key, opens the story and closes the popup |
| Card.CancelStartOver | src/components/stories/StoryCard.tsx:44-46 | cancelling closes the popup of the same card, leaves storage untouched and navigates nowhere |
| Card.StartOverPopup | src/components/stories/StoryCard.tsx:26-97 | opening then cancelling gives back the card with the popup closed and the store as it was; confirming from the open popup is confirming; the popup's clicks that reach a completed card navigate nowhere of their own |
| Card.StartOverKeepsProgress | src/components/stories/StoryCard.tsx:38-42 | confirming a start-over leaves the saved progress as it was |
| Card.RestartAfterFinish | src/components/stories/StoryCard.tsx:26-42 | a finished story's card stays put; after a start-over it opens again, and the page mounts a fresh, uncompleted reader at "start" |
| Card.RestartedStoryFound | src/components/stories/StoryCard.tsx:38-42 | in a well-formed catalog a restarted story opens on a segment, never on the not-found view |
| StoryTeller.KeyError | src/components/stories/AIStoryTeller.tsx:69-72 | a missing, empty or placeholder API key raises the "not set" error, and any other key raises none |
| StoryTeller.SelectTheme | src/components/stories/AIStoryTeller.tsx:103-108 | the theme is futuristic exactly when the reply mentions the futuristic tag, else horror exactly when it mentions the horror tag, else medieval |
| StoryTeller.TagLengthAt | src/components/stories/AIStoryTeller.tsx:109 | a tag match starts at a position exactly when one of the three tags occurs there, and it fits in the text |
| StoryTeller.FindTag | src/components/stories/AIStoryTeller.tsx:109 | the match found is the leftmost one from the start position, and none is found only when no tag occurs |
| StoryTeller.FindTagHas | src/components/stories/AIStoryTeller.tsx:109 | a tag match is found exactly when the text mentions one of the three tags |
| StoryTeller.StripTag | src/components/stories/AIStoryTeller.tsx:109 | a text without a tag is kept; otherwise exactly the leftmost tag match, which is non-empty and has at most one newline after it, is cut out (`CutsLeftmostTag`) |
| StoryTeller.StripTagChanges | src/components/stories/AIStoryTeller.tsx:109 | stripping changes a reply exactly when it carries a tag, and then removes one tag and at most one newline |
| StoryTeller.CleanReply | src/components/stories/AIStoryTeller.tsx:109 | a reply without a tag is only trimmed; one with a tag loses at least a tag's length; the result has no whitespace at either end |
| StoryTeller.RequestError | src/components/stories/AIStoryTeller.tsx:68-97 | the key error comes first; then a bad status gives the fetch error and a thrown error its message; only a reply raises none |
| StoryTeller.StoryText | src/components/stories/AIStoryTeller.tsx:101 | the first choice's content when present and non-empty, else the apology; never empty |
| StoryTeller.Answer | src/components/stories/AIStoryTeller.tsx:101-133 | the bubble is an ai bubble with a theme: an error is medieval and embedded in the message; a reply is themed by its tags and no longer than the reply text |
| StoryTeller.Narrates | src/components/stories/AIStoryTeller.tsx:114 | narration needs speech, no key error and a reply with non-empty content, and the text read aloud (the bubble's message) is never the apology |
| StoryTeller.NarratesPlainReply | src/components/stories/AIStoryTeller.tsx:100-114 | with speech and a usable key, a reply text without a theme tag, without surrounding whitespace and other than the apology is shown verbatim and read aloud |
| StoryTeller.ErrorEntryEmbeds | src/components/stories/AIStoryTeller.tsx:130-133 | an error bubble is themed medieval and contains the error message |
| StoryTeller.AnswerCases | src/components/stories/AIStoryTeller.tsx:96-133 | key, status and thrown failures give an error bubble embedding their message; a reply gives its cleaned, themed text; a missing reply gives the apology and no narration |
| StoryTeller.ApologyClean | src/components/stories/AIStoryTeller.tsx:101-114 | the apology carries no tag and no surrounding whitespace, so cleaning keeps it |
| StoryTeller.Generate | src/components/stories/AIStoryTeller.tsx:62-138 | blank input changes nothing; otherwise exactly a user entry and one ai entry are appended, the input is cleared, loading ends and narration plays exactly when it starts now or was already playing |
| StoryTeller.ToggleSpeech | src/components/stories/AIStoryTeller.tsx:50-59 | without an utterance nothing changes; otherwise only play/pause flips |
| StoryTeller.ToggleSpeechTwice | src/components/stories/AIStoryTeller.tsx:50-59 | toggling twice restores the narration state |
| Flags.Upper | src/components/feature-flags/FeatureFlagDemo.tsx:330 | a lower-case ASCII letter becomes its upper-case form; any other character is kept |
| Flags.Capitalize | src/components/feature-flags/FeatureFlagDemo.tsx:330 | length and word structure are kept; every word start is upper-cased and every other character is unchanged |
| Flags.FlagTitle | src/components/feature-flags/FeatureFlagDemo.tsx:330 | character by character: an underscore becomes a space, a letter that starts a word (after the start, an underscore or a non-word character) is upper-cased, anything else is kept; so no underscore is left and no word starts lower-case |
| Flags.TitleSplits | src/components/feature-flags/FeatureFlagDemo.tsx:330 | the title of `a_b` is the title of `a`, a space and the title of `b` |
| Flags.LowerWordTitle | src/components/feature-flags/FeatureFlagDemo.tsx:330 | a word of lower-case letters gets only its first letter upper-cased |
| Flags.NarrativeFlagTitle | src/components/feature-flags/FeatureFlagDemo.tsx:330 | "use_first_person_narrative" is titled "Use First Person Narrative" |
| Flags.CapitalizeIdempotent | src/components/feature-flags/FeatureFlagDemo.tsx:330 | upper-casing word starts twice is doing it once |
| Flags.FlagTitleIdempotent | src/components/feature-flags/FeatureFlagDemo.tsx:330 | formatting a title again gives the same title |
| Flags.ConfigValue | src/components/feature-flags/FeatureFlagDemo.tsx:24-26 | a missing or empty variable reads "Not configured"; any other value is kept |
| Flags.ValidateConfig | src/components/feature-flags/FeatureFlagDemo.tsx:62-72 | the API key is checked first, then the environment id, then the project id; the first empty or "Not configured" one is the error, and there is none only when all three are set |
| Flags.LoadedConfigNonEmpty | src/components/feature-flags/FeatureFlagDemo.tsx:24-72 | the configuration read from the environment passes exactly when all three variables are present, non-empty and not "Not configured" |
| Flags.Member | src/components/feature-flags/FeatureFlagDemo.tsx:95-103 | a property read finds a value exactly when the object has the key, and then a value stored under it |
| Flags.ArrayMember | src/components/feature-flags/FeatureFlagDemo.tsx:95-100 | an array is found under a key exactly when the value stored there is an array |
| Flags.FirstNamed | src/components/feature-flags/FeatureFlagDemo.tsx:101-104 | the member found, key and value, is the first in key order whose value is an object with a "name"; none only when there is no such member |
| Flags.NamedList | src/components/feature-flags/FeatureFlagDemo.tsx:101-107 | the fallback list is the first named member alone, and exists exactly when that member's key is not the empty string, which `if (featureKeys)` treats as false |
| Flags.Candidates | src/components/feature-flags/FeatureFlagDemo.tsx:92-107 | an array body is its own candidate list and a primitive body has none; an object's list is the array under "results", "features" or "data", or its first named member when that member's key is non-empty, and it has none only when none of these exists |
| Flags.ExtractFeatures | src/components/feature-flags/FeatureFlagDemo.tsx:92-112 | a null body is its own error; an array body is its list when non-empty; a primitive body has none; for an object the first of "results", "features", "data" holding an array decides, and is the list exactly when non-empty; with none of them the first named member alone is the list when its key is non-empty, else there is none |
| Flags.ResultsEnvelope | src/components/feature-flags/FeatureFlagDemo.tsx:93-96 | a list wrapped as the leading "results" member of an object extracts as the bare list does |
| Flags.EmptyResultsWin | src/components/feature-flags/FeatureFlagDemo.tsx:95-112 | an empty "results" array is chosen over "features" and "data" and then rejected |
| Flags.NamedFallback | src/components/feature-flags/FeatureFlagDemo.tsx:101-112 | without an array under the three keys, the list is the first named member alone, or an error when there is none or its key is empty |
| Flags.EmptyKeyRejected | src/components/feature-flags/FeatureFlagDemo.tsx:101-111 | a named member under the empty key, found first, makes the response unrecognised even when later members are named |
| Flags.FindFeature | src/components/feature-flags/FeatureFlagDemo.tsx:114-117 | the feature found is the first whose name is the flag id, with no null element before it; not found means no null element and no match; a null element before any match is an error |
| Flags.Enabled | src/components/feature-flags/FeatureFlagDemo.tsx:56 | a flag reads as on exactly when its key is present with value true |
| Flags.StatusLabel | src/components/feature-flags/FeatureFlagDemo.tsx:340-343 | the label is "Enabled" exactly when the flag reads as on, else "Disabled" |
| Flags.Description | src/components/feature-flags/FeatureFlagDemo.tsx:332 | a non-empty description is shown as is; otherwise a generated text ending in the flag id |
| Flags.InitFlags | src/components/feature-flags/FeatureFlagDemo.tsx:32-52 | the local flags hold exactly one entry per flag key, each valued by hasFeature |
| Flags.Flip | src/components/feature-flags/FeatureFlagDemo.tsx:54-60 | the optimistic flip negates what the flag read as, adds its key if missing and leaves every other key unchanged |
| Flags.Attempt | src/components/feature-flags/FeatureFlagDemo.tsx:54-229 | the checks run in order and the first failing one decides: a configuration error, then the feature-list error, then the feature-lookup error, then a failed request; with all of them passed the result is the server's confirmed value, and only then is it a success |
| Flags.ConfiguredToggleSucceeds | src/components/feature-flags/FeatureFlagDemo.tsx:92-229 | a configured toggle of a feature listed under "results" succeeds with the confirmed value, and the handler's last write shows that value |
| Flags.Recovered | src/components/feature-flags/FeatureFlagDemo.tsx:257-266 | the failure path settles on the server's state when it could be read, else on hasFeature |
| Flags.Toggle | src/components/feature-flags/FeatureFlagDemo.tsx:54-271 | the handler's own writes touch only the toggled key, adding it if missing |
| Flags.ToggleSettles | src/components/feature-flags/FeatureFlagDemo.tsx:220-266 | the handler's last write is the server-confirmed value on success and the recovered value on failure |
| Flags.Settled | src/components/feature-flags/FeatureFlagDemo.tsx:32-40 | once the page has re-rendered, a successful toggle leaves one entry per key of `getAllFlags()`, each valued by the refreshed `hasFeature`; a failed one leaves the handler's writes: the recovered value for the flag and every other key unchanged |
| Flags.RefreshOverridesConfirmed | src/components/feature-flags/FeatureFlagDemo.tsx:220-229 | after a successful toggle the flag shows the refreshed SDK value, not the server-confirmed one, and a flag outside `getAllFlags()` disappears |
| Flags.UnconfiguredToggle | src/components/feature-flags/FeatureFlagDemo.tsx:62-72 | with the configuration missing none of the toggle's own requests runs, so the outcome depends on neither their response nor the server, and the flag takes the value recovered by the catch block's requests |
| Flags.FlipTwice | src/components/feature-flags/FeatureFlagDemo.tsx:56-60 | two optimistic flips of a present flag restore the map |
| Flags.ToggleKeepsKeys | src/components/feature-flags/FeatureFlagDemo.tsx:32-60 | toggling one of the flag keys keeps exactly one entry per key |

## Left out

- Timers and spinners: the 500 ms segment delay, the loading view and the refresh spinner are presentation. Loading is synchronous in the model.
- Reader.Mount: the model loads the first segment with the session's style. In the source the mount effect sets the style and loads the segment in the same pass, so that first load still sees the initial "third-person" state (a React state update applies on the next render). Under the first-person flag the first segment is therefore rewritten to second person and then rewritten again by NarrativeStyle. React state timing is not part of this model.
- Narrative.Transform: the concrete examples ("You are brave and Your sword is sharp." and its third-person counterpart) are not proved as instances. Evaluating the rewrite on literal sentences is beyond what the verifier settles quickly; the general lemmas cover the behaviour.
- Theme styling: theme CSS classes (`getThemeClasses`, StoryTheme, the card badge) are presentation. The catalog keeps each segment's theme, and `Reader.Display` carries it through unchanged.
- Navigation, toasts, sharing, the clipboard and `alert` are side effects with no state of their own in the model. The exit and return actions become the `Exited` event and the `Nav` value.
- Speech synthesis: only the `isSpeaking` flag and whether an utterance exists are modelled. Speaking, pausing, resuming, cancelling and the end and error callbacks of the utterance are browser calls. Closing the chat window, which cancels speech (src/components/stories/AIStoryTeller.tsx:31-47), is left out with them. So are scrolling and key handling.
- The story request itself (prompt, model parameters, HTTP) is the `Reply` input. A malformed response body that makes `data.choices[0]` throw is one more `Thrown` reply.
- The Flagsmith REST calls after the feature lookup (feature states, creation, update, confirmation, src/components/feature-flags/FeatureFlagDemo.tsx:118-224) are collapsed into `Server`. In the failure path (lines 232-268), only the final choice between the server's state and `hasFeature` is modelled, as `Flags.Recovered`; the requests that produce that state are not.
- Flags.Attempt: the server-confirmed value is a boolean. The source stores whatever the server's `enabled` field holds.
- Reader.Lookup: the catalog is read by own keys only. The source indexes plain objects, so `storiesData[storyId]` and `storyData[segmentId]` also find names inherited from `Object.prototype`, such as "constructor". For story "story-1" with saved progress "constructor", the source finds a function where a segment should be, `content.startsWith` throws inside the timer, and the spinner never ends; the model shows the not-found view. A story id such as "constructor" is likewise not exactly an unknown story in the source, so `Reader.UnknownStoryNotFound` and the not-found view hold for ids that are not inherited names.
- Interface.Open: the page reads saved progress in an effect, so the reader first mounts at "start" and mounts again at the saved segment on the next render. The model gives the state after the second mount.
- Flags.Settled: the order of the handler's last write and the init effect's rebuild follows React 18's batching of the updates made after `refreshFlags` returns. The provider re-renders, and so resets the page's flags, on any of its own state changes; only the one inside a toggle is modelled.
- Flags.Member: JSON objects are field sequences read first match first. Duplicate keys (JSON.parse keeps the last) and the JavaScript rule that integer-like keys enumerate first are not modelled. Neither are properties inherited from the object prototype (a flag id such as "constructor").
- Flags.FlagTitle: only ASCII letters are upper-cased, which matches `\w`. `toUpperCase` on other characters is never reached.
- Numbers in JSON are integers in the model. Nothing here reads their value.
- The flag dashboard (src/components/admin/FeatureFlagDashboard.tsx) and the Flagsmith context (src/contexts/FlagsmithContext.tsx) are not part of this model. `hasFeature` and `getAllFlags` are inputs.
- Routing (src/App.tsx) and the conditional render of StoryFeatures are not part of this model.

=== FILE: catalog.dfy ===
/**
 * The static story catalog of StoryReader.tsx (`storiesData`): six story
 * graphs, each a map from segment id to segment, and the well-formedness
 * rules every graph is meant to satisfy.
 */
module Catalog {

  /** The presentational theme a segment carries unchanged through the reader. */
  datatype Theme = Medieval | Futuristic | Horror | Default

  /** A labelled edge to another segment of the same story. */
  datatype Choice = Choice(id: string, text: string, nextSegmentId: string)

  /**
   * One node of a story graph. An absent `choices` list is the empty
   * sequence and an absent `isEnding` is `false`, which is how the reader
   * treats both.
   */
  datatype Segment = Segment(id: string, content: string, choices: seq<Choice>, theme: Theme, isEnding: bool)

  /** A story: segment id to segment. */
  type Story = map<string, Segment>

  /** The catalog: story id to story. */
  type Stories = map<string, Story>

  /** The canonical entry segment of every story. */
  const Start: string := "start"

  /** No two choices of one segment share an id. */
  predicate ChoiceIdsDistinct(choices: seq<Choice>) {
    forall i, j :: 0 <= i < j < |choices| ==> choices[i].id != choices[j].id
  }

  /**
   * The segment stored under `key` is well formed in `story`: its id is its
   * key, it either offers choices or is an ending (never both, never
   * neither), its choice ids are distinct and every choice leads to a
   * segment of the same story.
   */
  predicate SegmentWellFormed(key: string, segment: Segment, story: Story) {
    && segment.id == key
    && (|segment.choices| > 0 <==> !segment.isEnding)
    && ChoiceIdsDistinct(segment.choices)
    && forall c :: c in segment.choices ==> c.nextSegmentId in story
  }

  /** A story has a start segment and all its segments are well formed. */
  predicate StoryWellFormed(story: Story) {
    && Start in story
    && forall key :: key in story ==> SegmentWellFormed(key, story[key], story)
  }

  /** Every story of a catalog is well formed. */
  predicate CatalogWellFormed(stories: Stories) {
    forall id :: id in stories ==> StoryWellFormed(stories[id])
  }

  /** "story-1" (StoryReader.tsx lines 44-135). */
  const Story1: Story := map[
    "start" := Segment(
      "start",
      "You stand at the edge of a misty, ancient forest, the air thick with the scent of pine and mystery. A crumbling stone archway looms ahead, flanked by two shadowy paths—one winding into darkness, the other glowing faintly with an eerie light.",
      [Choice("choice-1", "Venture down the dark path with a torch", "dark-path"), Choice("choice-2", "Follow the glowing path with curiosity", "glowing-path")],
      Medieval, false),
    "dark-path" := Segment(
      "dark-path",
      "The torch flickers as you descend into a cavernous gloom. The walls pulse with faint runes, and a chilling whisper echoes. Suddenly, a spectral knight materializes, its armor clanking ominously.",
      [Choice("choice-3", "Challenge the knight to a duel", "knight-duel"), Choice("choice-4", "Offer a peace gesture with your last coin", "knight-peace")],
      Horror, false),
    "glowing-path" := Segment(
      "glowing-path",
      "The path leads to a sacred grove where a wise druid awaits. He speaks of a forgotten throne hidden deep within the forest.",
      [Choice("choice-5", "Accept the druid’s quest to find the throne", "throne-quest"), Choice("choice-6", "Decline and seek your own path", "own-path")],
      Medieval, false),
    "knight-duel" := Segment(
      "knight-duel",
      "You draw your sword, the clash of steel ringing through the cavern. The knight fights with unearthly skill, but a weak point in its armor glints.",
      [Choice("choice-7", "Strike the weak point with all your might", "knight-victory"), Choice("choice-8", "Flee as the knight falters", "knight-escape")],
      Medieval, false),
    "knight-peace" := Segment(
      "knight-peace",
      "The knight accepts your coin and reveals a hidden passage to a treasure vault guarded by a skeletal dragon.",
      [Choice("choice-9", "Descend into the vault", "treasure-chamber"), Choice("choice-10", "Thank the knight and retreat", "start")],
      Horror, false),
    "throne-quest" := Segment(
      "throne-quest",
      "You journey through enchanted woods, battling goblins and uncovering ancient relics. At last, you reach the throne of the Lost Kingdom.",
      [],
      Medieval, true),
    "own-path" := Segment(
      "own-path",
      "You carve your own destiny, becoming a legendary wanderer of the ancient forest, forever free.",
      [],
      Medieval, true),
    "knight-victory" := Segment(
      "knight-victory",
      "Your strike shatters the knight, revealing a golden amulet that leads you to the Lost Kingdom’s throne.",
      [],
      Medieval, true),
    "knight-escape" := Segment(
      "knight-escape",
      "You flee, the knight’s laughter haunting your steps. The forest grows silent, a mystery unsolved but survived.",
      [],
      Horror, true),
    "treasure-chamber" := Segment(
      "treasure-chamber",
      "The skeletal dragon awakens, its fiery breath singeing your cloak. A hidden exit glows behind its hoard.",
      [Choice("choice-11", "Fight the dragon with a gem’s power", "dragon-victory"), Choice("choice-12", "Dodge the flames and escape", "dragon-escape")],
      Horror, false),
    "dragon-victory" := Segment(
      "dragon-victory",
      "The gem unleashes a blinding light, vanquishing the dragon. You claim its hoard, a hero of legend.",
      [],
      Medieval, true),
    "dragon-escape" := Segment(
      "dragon-escape",
      "You escape, the dragon’s roars fading. A new path lies ahead, shrouded in fog.",
      [],
      Horror, true)
  ]

  /** "story-2" (StoryReader.tsx lines 136-188). */
  const Story2: Story := map[
    "start" := Segment(
      "start",
      "You’re in Neon City, a sprawling dystopia of flickering holograms and cybernetic street vendors. A mysterious message on your neural implant points to a corporate conspiracy.",
      [Choice("choice-1", "Hack into the corporate network", "hack-network"), Choice("choice-2", "Meet an informant in the underworld", "informant-meet")],
      Futuristic, false),
    "hack-network" := Segment(
      "hack-network",
      "Your hack reveals encrypted files about a cybernetic enhancement project. A security AI detects your intrusion and locks you out.",
      [Choice("choice-3", "Override the AI with a virus", "virus-override"), Choice("choice-4", "Disconnect and flee the scene", "flee-scene")],
      Futuristic, false),
    "informant-meet" := Segment(
      "informant-meet",
      "The informant, a cybernetic-enhanced smuggler, shares intel about a secret lab. But a corporate assassin drones are closing in.",
      [Choice("choice-5", "Fight the drones with the smuggler", "fight-drones"), Choice("choice-6", "Sneak away to the lab alone", "lab-sneak")],
      Futuristic, false),
    "virus-override" := Segment(
      "virus-override",
      "The virus works, exposing the project’s dark truth: a mind-control chip. You’re now a target of the corporation.",
      [],
      Futuristic, true),
    "flee-scene" := Segment(
      "flee-scene",
      "You escape the AI, but the conspiracy remains hidden. You live to hack another day.",
      [],
      Futuristic, true),
    "fight-drones" := Segment(
      "fight-drones",
      "Together, you disable the drones, but the smuggler betrays you, taking the intel for himself.",
      [],
      Futuristic, true),
    "lab-sneak" := Segment(
      "lab-sneak",
      "You infiltrate the lab, uncovering a mind-control prototype. You destroy it, saving Neon City from tyranny.",
      [],
      Futuristic, true)
  ]

  /** "story-3" (StoryReader.tsx lines 189-241). */
  const Story3: Story := map[
    "start" := Segment(
      "start",
      "You arrive at Ravenwood Mansion at midnight, its windows dark and air heavy with dread. A creak echoes from within as you step onto the porch.",
      [Choice("choice-1", "Enter through the front door", "front-door"), Choice("choice-2", "Sneak around to the back", "back-entrance")],
      Horror, false),
    "front-door" := Segment(
      "front-door",
      "The door slams shut behind you, and ghostly whispers fill the air. A shadowy figure appears at the top of the staircase.",
      [Choice("choice-3", "Confront the figure", "confront-figure"), Choice("choice-4", "Hide in the nearby closet", "hide-closet")],
      Horror, false),
    "back-entrance" := Segment(
      "back-entrance",
      "You find a broken window leading to the kitchen. Inside, blood-stained knives are scattered on the counter.",
      [Choice("choice-5", "Search the kitchen for clues", "kitchen-clues"), Choice("choice-6", "Head toward the basement door", "basement-door")],
      Horror, false),
    "confront-figure" := Segment(
      "confront-figure",
      "The figure reveals itself as a vengeful spirit, cursing you to join its eternal torment.",
      [],
      Horror, true),
    "hide-closet" := Segment(
      "hide-closet",
      "You escape the figure’s notice and find a diary detailing the mansion’s cursed history.",
      [],
      Horror, true),
    "kitchen-clues" := Segment(
      "kitchen-clues",
      "You uncover a note about a ritual in the basement. A sudden scream chills your blood.",
      [],
      Horror, true),
    "basement-door" := Segment(
      "basement-door",
      "The basement holds a pentagram glowing red. You stop the ritual just in time, breaking the curse.",
      [],
      Horror, true)
  ]

  /** "story-4" (StoryReader.tsx lines 242-288). */
  const Story4: Story := map[
    "start" := Segment(
      "start",
      "You join a band of adventurers in a sunlit valley, the shadow of an ancient dragon looming over the horizon. The village elder pleads for your help.",
      [Choice("choice-1", "Gather weapons from the blacksmith", "blacksmith"), Choice("choice-2", "Seek the dragon’s lair immediately", "dragon-lair")],
      Medieval, false),
    "blacksmith" := Segment(
      "blacksmith",
      "The blacksmith forges a legendary sword imbued with magic. You feel ready to face the dragon.",
      [Choice("choice-3", "Head to the dragon’s lair", "dragon-lair"), Choice("choice-4", "Train with the sword first", "train-sword")],
      Medieval, false),
    "dragon-lair" := Segment(
      "dragon-lair",
      "The dragon’s lair is a smoldering cave. It awakens, its fiery breath illuminating the darkness.",
      [Choice("choice-5", "Attack the dragon head-on", "dragon-fight"), Choice("choice-6", "Search for a weak spot", "weak-spot")],
      Medieval, false),
    "train-sword" := Segment(
      "train-sword",
      "Your training hones your skills, making you a master swordsman. You march to the dragon’s lair with confidence.",
      [],
      Medieval, true),
    "dragon-fight" := Segment(
      "dragon-fight",
      "You battle fiercely, but the dragon’s scales are impenetrable. You fall, a hero remembered.",
      [],
      Medieval, true),
    "weak-spot" := Segment(
      "weak-spot",
      "You spot a gap in the dragon’s scales and strike true, slaying the beast and saving the valley.",
      [],
      Medieval, true)
  ]

  /** "story-5" (StoryReader.tsx lines 289-341). */
  const Story5: Story := map[
    "start" := Segment(
      "start",
      "You’re aboard the starship *Alpha Dawn*, tasked with establishing humanity’s first interstellar colony. An alien signal disrupts your systems.",
      [Choice("choice-1", "Trace the signal’s source", "signal-source"), Choice("choice-2", "Focus on repairing the systems", "repair-systems")],
      Futuristic, false),
    "signal-source" := Segment(
      "signal-source",
      "The signal leads to a nearby planet with alien ruins. A glowing artifact hums with energy.",
      [Choice("choice-3", "Touch the artifact", "artifact-touch"), Choice("choice-4", "Study it from a distance", "artifact-study")],
      Futuristic, false),
    "repair-systems" := Segment(
      "repair-systems",
      "You restore the systems, but the signal grows stronger, forcing an emergency landing on an unknown planet.",
      [Choice("choice-5", "Explore the planet", "explore-planet"), Choice("choice-6", "Stay on the ship", "stay-ship")],
      Futuristic, false),
    "artifact-touch" := Segment(
      "artifact-touch",
      "The artifact grants you visions of an alien alliance, forging a new future for humanity.",
      [],
      Futuristic, true),
    "artifact-study" := Segment(
      "artifact-study",
      "You learn the artifact’s history but trigger a defense mechanism, barely escaping alive.",
      [],
      Futuristic, true),
    "explore-planet" := Segment(
      "explore-planet",
      "The planet is habitable, and you establish Space Colony Alpha, a new home for humanity.",
      [],
      Futuristic, true),
    "stay-ship" := Segment(
      "stay-ship",
      "You remain on the ship, but the signal overwhelms the systems, stranding you in space.",
      [],
      Futuristic, true)
  ]

  /** "story-6" (StoryReader.tsx lines 342-388). */
  const Story6: Story := map[
    "start" := Segment(
      "start",
      "You’re in the foggy town of Black Hollow, investigating paranormal activity. The townsfolk speak of a cursed church on the hill.",
      [Choice("choice-1", "Visit the church at dusk", "church-dusk"), Choice("choice-2", "Interview the townsfolk first", "townsfolk-interview")],
      Horror, false),
    "church-dusk" := Segment(
      "church-dusk",
      "The church’s stained glass glows ominously. A chilling voice whispers your name from the altar.",
      [Choice("choice-3", "Approach the altar", "altar-approach"), Choice("choice-4", "Flee the church", "church-flee")],
      Horror, false),
    "townsfolk-interview" := Segment(
      "townsfolk-interview",
      "The townsfolk reveal the church’s dark past—a cult’s ritual gone wrong. They warn you of vengeful spirits.",
      [Choice("choice-5", "Prepare for the church visit", "church-dusk"), Choice("choice-6", "Leave Black Hollow", "leave-town")],
      Horror, false),
    "altar-approach" := Segment(
      "altar-approach",
      "A vengeful spirit emerges, trapping you in an eternal nightmare.",
      [],
      Horror, true),
    "church-flee" := Segment(
      "church-flee",
      "You escape the church, but the whispers follow you, a haunting you’ll never outrun.",
      [],
      Horror, true),
    "leave-town" := Segment(
      "leave-town",
      "You leave Black Hollow, the curse untouched, but your sanity intact.",
      [],
      Horror, true)
  ]

  /** The whole catalog, `storiesData`. */
  const Catalog: Stories := map[
    "story-1" := Story1,
    "story-2" := Story2,
    "story-3" := Story3,
    "story-4" := Story4,
    "story-5" := Story5,
    "story-6" := Story6
  ]

  lemma Story1SegmentStart()
    ensures SegmentWellFormed("start", Story1["start"], Story1)
  {
  }

  lemma Story1SegmentDarkPath()
    ensures SegmentWellFormed("dark-path", Story1["dark-path"], Story1)
  {
  }

  lemma Story1SegmentGlowingPath()
    ensures SegmentWellFormed("glowing-path", Story1["glowing-path"], Story1)
  {
  }

  lemma Story1SegmentKnightDuel()
    ensures SegmentWellFormed("knight-duel", Story1["knight-duel"], Story1)
  {
  }

  lemma Story1SegmentKnightPeace()
    ensures SegmentWellFormed("knight-peace", Story1["knight-peace"], Story1)
  {
  }

  lemma Story1SegmentThroneQuest()
    ensures SegmentWellFormed("throne-quest", Story1["throne-quest"], Story1)
  {
  }

  lemma Story1SegmentOwnPath()
    ensures SegmentWellFormed("own-path", Story1["own-path"], Story1)
  {
  }

  lemma Story1SegmentKnightVictory()
    ensures SegmentWellFormed("knight-victory", Story1["knight-victory"], Story1)
  {
  }

  lemma Story1SegmentKnightEscape()
    ensures SegmentWellFormed("knight-escape", Story1["knight-escape"], Story1)
  {
  }

  lemma Story1SegmentTreasureChamber()
    ensures SegmentWellFormed("treasure-chamber", Story1["treasure-chamber"], Story1)
  {
  }

  lemma Story1SegmentDragonVictory()
    ensures SegmentWellFormed("dragon-victory", Story1["dragon-victory"], Story1)
  {
  }

  lemma Story1SegmentDragonEscape()
    ensures SegmentWellFormed("dragon-escape", Story1["dragon-escape"], Story1)
  {
  }

  lemma Story1WellFormed()
    ensures StoryWellFormed(Story1)
  {
    assert forall key :: key in Story1 ==> key in {"start", "dark-path", "glowing-path", "knight-duel", "knight-peace", "throne-quest", "own-path", "knight-victory", "knight-escape", "treasure-chamber", "dragon-victory", "dragon-escape"};
    forall key | key in Story1 ensures SegmentWellFormed(key, Story1[key], Story1) {
      if key == "start" {
        Story1SegmentStart();
      } else if key == "dark-path" {
        Story1SegmentDarkPath();
      } else if key == "glowing-path" {
        Story1SegmentGlowingPath();
      } else if key == "knight-duel" {
        Story1SegmentKnightDuel();
      } else if key == "knight-peace" {
        Story1SegmentKnightPeace();
      } else if key == "throne-quest" {
        Story1SegmentThroneQuest();
      } else if key == "own-path" {
        Story1SegmentOwnPath();
      } else if key == "knight-victory" {
        Story1SegmentKnightVictory();
      } else if key == "knight-escape" {
        Story1SegmentKnightEscape();
      } else if key == "treasure-chamber" {
        Story1SegmentTreasureChamber();
      } else if key == "dragon-victory" {
        Story1SegmentDragonVictory();
      } else if key == "dragon-escape" {
        Story1SegmentDragonEscape();
      }
    }
  }

  lemma Story2SegmentStart()
    ensures SegmentWellFormed("start", Story2["start"], Story2)
  {
  }

  lemma Story2SegmentHackNetwork()
    ensures SegmentWellFormed("hack-network", Story2["hack-network"], Story2)
  {
  }

  lemma Story2SegmentInformantMeet()
    ensures SegmentWellFormed("informant-meet", Story2["informant-meet"], Story2)
  {
  }

  lemma Story2SegmentVirusOverride()
    ensures SegmentWellFormed("virus-override", Story2["virus-override"], Story2)
  {
  }

  lemma Story2SegmentFleeScene()
    ensures SegmentWellFormed("flee-scene", Story2["flee-scene"], Story2)
  {
  }

  lemma Story2SegmentFightDrones()
    ensures SegmentWellFormed("fight-drones", Story2["fight-drones"], Story2)
  {
  }

  lemma Story2SegmentLabSneak()
    ensures SegmentWellFormed("lab-sneak", Story2["lab-sneak"], Story2)
  {
  }

  lemma Story2WellFormed()
    ensures StoryWellFormed(Story2)
  {
    assert forall key :: key in Story2 ==> key in {"start", "hack-network", "informant-meet", "virus-override", "flee-scene", "fight-drones", "lab-sneak"};
    forall key | key in Story2 ensures SegmentWellFormed(key, Story2[key], Story2) {
      if key == "start" {
        Story2SegmentStart();
      } else if key == "hack-network" {
        Story2SegmentHackNetwork();
      } else if key == "informant-meet" {
        Story2SegmentInformantMeet();
      } else if key == "virus-override" {
        Story2SegmentVirusOverride();
      } else if key == "flee-scene" {
        Story2SegmentFleeScene();
      } else if key == "fight-drones" {
        Story2SegmentFightDrones();
      } else if key == "lab-sneak" {
        Story2SegmentLabSneak();
      }
    }
  }

  lemma Story3SegmentStart()
    ensures SegmentWellFormed("start", Story3["start"], Story3)
  {
  }

  lemma Story3SegmentFrontDoor()
    ensures SegmentWellFormed("front-door", Story3["front-door"], Story3)
  {
  }

  lemma Story3SegmentBackEntrance()
    ensures SegmentWellFormed("back-entrance", Story3["back-entrance"], Story3)
  {
  }

  lemma Story3SegmentConfrontFigure()
    ensures SegmentWellFormed("confront-figure", Story3["confront-figure"], Story3)
  {
  }

  lemma Story3SegmentHideCloset()
    ensures SegmentWellFormed("hide-closet", Story3["hide-closet"], Story3)
  {
  }

  lemma Story3SegmentKitchenClues()
    ensures SegmentWellFormed("kitchen-clues", Story3["kitchen-clues"], Story3)
  {
  }

  lemma Story3SegmentBasementDoor()
    ensures SegmentWellFormed("basement-door", Story3["basement-door"], Story3)
  {
  }

  lemma Story3WellFormed()
    ensures StoryWellFormed(Story3)
  {
    assert forall key :: key in Story3 ==> key in {"start", "front-door", "back-entrance", "confront-figure", "hide-closet", "kitchen-clues", "basement-door"};
    forall key | key in Story3 ensures SegmentWellFormed(key, Story3[key], Story3) {
      if key == "start" {
        Story3SegmentStart();
      } else if key == "front-door" {
        Story3SegmentFrontDoor();
      } else if key == "back-entrance" {
        Story3SegmentBackEntrance();
      } else if key == "confront-figure" {
        Story3SegmentConfrontFigure();
      } else if key == "hide-closet" {
        Story3SegmentHideCloset();
      } else if key == "kitchen-clues" {
        Story3SegmentKitchenClues();
      } else if key == "basement-door" {
        Story3SegmentBasementDoor();
      }
    }
  }

  lemma Story4SegmentStart()
    ensures SegmentWellFormed("start", Story4["start"], Story4)
  {
  }

  lemma Story4SegmentBlacksmith()
    ensures SegmentWellFormed("blacksmith", Story4["blacksmith"], Story4)
  {
  }

  lemma Story4SegmentDragonLair()
    ensures SegmentWellFormed("dragon-lair", Story4["dragon-lair"], Story4)
  {
  }

  lemma Story4SegmentTrainSword()
    ensures SegmentWellFormed("train-sword", Story4["train-sword"], Story4)
  {
  }

  lemma Story4SegmentDragonFight()
    ensures SegmentWellFormed("dragon-fight", Story4["dragon-fight"], Story4)
  {
  }

  lemma Story4SegmentWeakSpot()
    ensures SegmentWellFormed("weak-spot", Story4["weak-spot"], Story4)
  {
  }

  lemma Story4WellFormed()
    ensures StoryWellFormed(Story4)
  {
    assert forall key :: key in Story4 ==> key in {"start", "blacksmith", "dragon-lair", "train-sword", "dragon-fight", "weak-spot"};
    forall key | key in Story4 ensures SegmentWellFormed(key, Story4[key], Story4) {
      if key == "start" {
        Story4SegmentStart();
      } else if key == "blacksmith" {
        Story4SegmentBlacksmith();
      } else if key == "dragon-lair" {
        Story4SegmentDragonLair();
      } else if key == "train-sword" {
        Story4SegmentTrainSword();
      } else if key == "dragon-fight" {
        Story4SegmentDragonFight();
      } else if key == "weak-spot" {
        Story4SegmentWeakSpot();
      }
    }
  }

  lemma Story5SegmentStart()
    ensures SegmentWellFormed("start", Story5["start"], Story5)
  {
  }

  lemma Story5SegmentSignalSource()
    ensures SegmentWellFormed("signal-source", Story5["signal-source"], Story5)
  {
  }

  lemma Story5SegmentRepairSystems()
    ensures SegmentWellFormed("repair-systems", Story5["repair-systems"], Story5)
  {
  }

  lemma Story5SegmentArtifactTouch()
    ensures SegmentWellFormed("artifact-touch", Story5["artifact-touch"], Story5)
  {
  }

  lemma Story5SegmentArtifactStudy()
    ensures SegmentWellFormed("artifact-study", Story5["artifact-study"], Story5)
  {
  }

  lemma Story5SegmentExplorePlanet()
    ensures SegmentWellFormed("explore-planet", Story5["explore-planet"], Story5)
  {
  }

  lemma Story5SegmentStayShip()
    ensures SegmentWellFormed("stay-ship", Story5["stay-ship"], Story5)
  {
  }

  lemma Story5WellFormed()
    ensures StoryWellFormed(Story5)
  {
    assert forall key :: key in Story5 ==> key in {"start", "signal-source", "repair-systems", "artifact-touch", "artifact-study", "explore-planet", "stay-ship"};
    forall key | key in Story5 ensures SegmentWellFormed(key, Story5[key], Story5) {
      if key == "start" {
        Story5SegmentStart();
      } else if key == "signal-source" {
        Story5SegmentSignalSource();
      } else if key == "repair-systems" {
        Story5SegmentRepairSystems();
      } else if key == "artifact-touch" {
        Story5SegmentArtifactTouch();
      } else if key == "artifact-study" {
        Story5SegmentArtifactStudy();
      } else if key == "explore-planet" {
        Story5SegmentExplorePlanet();
      } else if key == "stay-ship" {
        Story5SegmentStayShip();
      }
    }
  }

  lemma Story6SegmentStart()
    ensures SegmentWellFormed("start", Story6["start"], Story6)
  {
  }

  lemma Story6SegmentChurchDusk()
    ensures SegmentWellFormed("church-dusk", Story6["church-dusk"], Story6)
  {
  }

  lemma Story6SegmentTownsfolkInterview()
    ensures SegmentWellFormed("townsfolk-interview", Story6["townsfolk-interview"], Story6)
  {
  }

  lemma Story6SegmentAltarApproach()
    ensures SegmentWellFormed("altar-approach", Story6["altar-approach"], Story6)
  {
  }

  lemma Story6SegmentChurchFlee()
    ensures SegmentWellFormed("church-flee", Story6["church-flee"], Story6)
  {
  }

  lemma Story6SegmentLeaveTown()
    ensures SegmentWellFormed("leave-town", Story6["leave-town"], Story6)
  {
  }

  lemma Story6WellFormed()
    ensures StoryWellFormed(Story6)
  {
    assert forall key :: key in Story6 ==> key in {"start", "church-dusk", "townsfolk-interview", "altar-approach", "church-flee", "leave-town"};
    forall key | key in Story6 ensures SegmentWellFormed(key, Story6[key], Story6) {
      if key == "start" {
        Story6SegmentStart();
      } else if key == "church-dusk" {
        Story6SegmentChurchDusk();
      } else if key == "townsfolk-interview" {
        Story6SegmentTownsfolkInterview();
      } else if key == "altar-approach" {
        Story6SegmentAltarApproach();
      } else if key == "church-flee" {
        Story6SegmentChurchFlee();
      } else if key == "leave-town" {
        Story6SegmentLeaveTown();
      }
    }
  }

  /** The two choices "story-1" opens with. */
  lemma Story1StartChoices()
    ensures "start" in Story1
    ensures Story1["start"].choices == [
      Choice("choice-1", "Venture down the dark path with a torch", "dark-path"),
      Choice("choice-2", "Follow the glowing path with curiosity", "glowing-path")]
  {
  }

  lemma CatalogLookup1()
    ensures "story-1" in Catalog && Catalog["story-1"] == Story1
  {
  }

  lemma CatalogLookup2()
    ensures "story-2" in Catalog && Catalog["story-2"] == Story2
  {
  }

  lemma CatalogLookup3()
    ensures "story-3" in Catalog && Catalog["story-3"] == Story3
  {
  }

  lemma CatalogLookup4()
    ensures "story-4" in Catalog && Catalog["story-4"] == Story4
  {
  }

  lemma CatalogLookup5()
    ensures "story-5" in Catalog && Catalog["story-5"] == Story5
  {
  }

  lemma CatalogLookup6()
    ensures "story-6" in Catalog && Catalog["story-6"] == Story6
  {
  }

  /**
   * The catalog literal is well formed: every choice target exists (the loop
   * from "knight-peace" back to "start" included), every segment is exactly
   * one of non-ending or ending, each id equals its key and every story has
   * a start segment.
   */
  lemma CatalogIsWellFormed()
    ensures CatalogWellFormed(Catalog)
  {
    assert forall id :: id in Catalog ==> id in {"story-1", "story-2", "story-3", "story-4", "story-5", "story-6"};
    forall id | id in Catalog ensures StoryWellFormed(Catalog[id]) {
      if id == "story-1" {
        CatalogLookup1();
        Story1WellFormed();
      } else if id == "story-2" {
        CatalogLookup2();
        Story2WellFormed();
      } else if id == "story-3" {
        CatalogLookup3();
        Story3WellFormed();
      } else if id == "story-4" {
        CatalogLookup4();
        Story4WellFormed();
      } else if id == "story-5" {
        CatalogLookup5();
        Story5WellFormed();
      } else if id == "story-6" {
        CatalogLookup6();
        Story6WellFormed();
      }
    }
  }
}

=== FILE: feature_flags.dfy ===
/**
 * The pure parts of FeatureFlagDemo.tsx: the card title built from a flag
 * id, the configuration check that precedes every request, how the list of
 * features is dug out of the JSON the projects endpoint returns, how one
 * feature is picked from it, and the local map of flag values the page
 * keeps. The requests themselves and the Flagsmith SDK are inputs: the
 * server's answers are parameters and `hasFeature` is a function argument.
 */
module Flags {
  import opened Wrappers
  import opened Text

  // ---------------------------------------------------------------------
  // Card title: `id.replace(/_/g, " ").replace(/\b\w/g, l => l.toUpperCase())`
  // ---------------------------------------------------------------------

  /** A regular-expression word character `\w`: ASCII letter, digit or underscore. */
  predicate IsWordChar(c: char) {
    ('a' <= c <= 'z') || ('A' <= c <= 'Z') || ('0' <= c <= '9') || c == '_'
  }

  predicate IsLower(c: char) {
    'a' <= c <= 'z'
  }

  /** `toUpperCase` on a single ASCII word character; every other word character is its own upper case. */
  function Upper(c: char): (u: char)
    ensures IsLower(c) ==> 'A' <= u <= 'Z' && u as int == c as int - 32
    ensures !IsLower(c) ==> u == c
  {
    if IsLower(c) then (c as int - 32) as char else c
  }

  /** Position `i` of `s` is matched by `\b\w`: a word character not preceded by one. */
  predicate StartsWord(s: string, i: nat)
    requires i < |s|
  {
    IsWordChar(s[i]) && (i == 0 || !IsWordChar(s[i - 1]))
  }

  /** The characters of `s` from `i` on, each upper-cased where a word starts. */
  function CapitalizeFrom(s: string, i: nat): (r: string)
    requires i <= |s|
    ensures |r| == |s| - i
    ensures forall j :: i <= j < |s| ==> r[j - i] == (if StartsWord(s, j) then Upper(s[j]) else s[j])
    decreases |s| - i
  {
    if i == |s| then []
    else [if StartsWord(s, i) then Upper(s[i]) else s[i]] + CapitalizeFrom(s, i + 1)
  }

  /** `replace(/\b\w/g, l => l.toUpperCase())`. */
  function Capitalize(s: string): (r: string)
    ensures |r| == |s|
    ensures forall j :: 0 <= j < |s| ==> IsWordChar(r[j]) == IsWordChar(s[j])
    ensures forall j :: 0 <= j < |s| ==> (r[j] == '_') == (s[j] == '_')
    ensures forall j :: 0 <= j < |s| && StartsWord(r, j) ==> !IsLower(r[j])
    ensures forall j :: 0 <= j < |s| ==> StartsWord(r, j) == StartsWord(s, j)
    ensures forall j :: 0 <= j < |s| && StartsWord(s, j) ==> r[j] == Upper(s[j])
    ensures forall j :: 0 <= j < |s| && !StartsWord(s, j) ==> r[j] == s[j]
  {
    var r := CapitalizeFrom(s, 0);
    assert forall j :: 0 <= j < |s| ==> r[j] == (if StartsWord(s, j) then Upper(s[j]) else s[j]);
    r
  }

  /**
   * Position `j` of a flag id starts a word of its title: once underscores
   * read as spaces, a word character there follows no word character.
   */
  predicate TitleWordStart(id: string, j: nat)
    requires j < |id|
  {
    IsWordChar(id[j]) && id[j] != '_' && (j == 0 || !IsWordChar(id[j - 1]) || id[j - 1] == '_')
  }

  /**
   * Character `j` of a flag's title: an underscore becomes a space, the
   * first letter of a word is upper-cased, anything else is kept.
   */
  function TitleChar(id: string, j: nat): char
    requires j < |id|
  {
    if id[j] == '_' then ' ' else if TitleWordStart(id, j) then Upper(id[j]) else id[j]
  }

  /** The title shown on a flag's card, character by character as `TitleChar` says. */
  function FlagTitle(id: string): (r: string)
    ensures |r| == |id|
    ensures forall j :: 0 <= j < |id| ==> r[j] == TitleChar(id, j)
    ensures '_' !in r
    ensures forall j :: 0 <= j < |r| && StartsWord(r, j) ==> !IsLower(r[j])
  {
    var spaced := ReplaceAll(id, "_", " ");
    ReplaceCharPointwise(id, '_', ' ');
    assert forall j :: 0 <= j < |id| ==> StartsWord(spaced, j) == TitleWordStart(id, j);
    Capitalize(spaced)
  }

  /**
   * A title character depends only on the character and on whether the one
   * before it ends a word.
   */
  lemma TitleCharLocal(x: string, i: nat, y: string, k: nat)
    requires i < |x| && k < |y| && x[i] == y[k]
    requires (i == 0 || !IsWordChar(x[i - 1]) || x[i - 1] == '_') == (k == 0 || !IsWordChar(y[k - 1]) || y[k - 1] == '_')
    ensures TitleChar(x, i) == TitleChar(y, k)
  {
  }

  /** An underscore separates words: the title of `a_b` is the title of `a`, a space, the title of `b`. */
  lemma TitleSplits(a: string, b: string)
    ensures FlagTitle(a + "_" + b) == FlagTitle(a) + " " + FlagTitle(b)
  {
    var id := a + "_" + b;
    var ta, tb := FlagTitle(a), FlagTitle(b);
    var lhs, rhs := FlagTitle(id), ta + " " + tb;
    assert |lhs| == |rhs|;
    forall j | 0 <= j < |id| ensures lhs[j] == rhs[j] {
      if j < |a| {
        TitleSplitsLeft(a, b, j);
        assert rhs[j] == ta[j];
      } else if j == |a| {
        assert id[j] == '_';
        assert rhs[j] == ' ';
      } else {
        TitleSplitsRight(a, b, j - |a| - 1);
        assert rhs[j] == tb[j - |a| - 1];
      }
    }
  }

  lemma TitleSplitsLeft(a: string, b: string, j: nat)
    requires j < |a|
    ensures FlagTitle(a + "_" + b)[j] == FlagTitle(a)[j]
  {
    var id := a + "_" + b;
    assert id[j] == a[j] && (j > 0 ==> id[j - 1] == a[j - 1]);
    TitleCharLocal(id, j, a, j);
  }

  lemma TitleSplitsRight(a: string, b: string, k: nat)
    requires k < |b|
    ensures FlagTitle(a + "_" + b)[|a| + 1 + k] == FlagTitle(b)[k]
  {
    var id := a + "_" + b;
    var j := |a| + 1 + k;
    assert id[j] == b[k] && (k > 0 ==> id[j - 1] == b[k - 1]) && (k == 0 ==> id[j - 1] == '_');
    TitleCharLocal(id, j, b, k);
  }

  /** A word of lower-case letters gets its first letter upper-cased. */
  lemma LowerWordTitle(w: string)
    requires |w| > 0 && forall i :: 0 <= i < |w| ==> IsLower(w[i])
    ensures FlagTitle(w) == [Upper(w[0])] + w[1..]
  {
    var r := FlagTitle(w);
    assert r[0] == TitleChar(w, 0) == Upper(w[0]);
    forall j | 1 <= j < |w| ensures r[j] == w[j] {
      assert r[j] == TitleChar(w, j);
    }
  }

  /** The flag the reader consults gets the card title "Use First Person Narrative". */
  lemma NarrativeFlagTitle()
    ensures FlagTitle("use_first_person_narrative") == "Use First Person Narrative"
  {
    var u, f, p, n := "use", "first", "person", "narrative";
    assert u + "_" + f + "_" + p + "_" + n == "use_first_person_narrative";
    assert u[1..] == "se" && f[1..] == "irst" && p[1..] == "erson" && n[1..] == "arrative";
    FourWordTitle(u, f, p, n);
    TitleWordsJoin();
  }

  /** The title of four lower-case words joined by underscores. */
  lemma FourWordTitle(u: string, f: string, p: string, n: string)
    requires |u| > 0 && forall i :: 0 <= i < |u| ==> IsLower(u[i])
    requires |f| > 0 && forall i :: 0 <= i < |f| ==> IsLower(f[i])
    requires |p| > 0 && forall i :: 0 <= i < |p| ==> IsLower(p[i])
    requires |n| > 0 && forall i :: 0 <= i < |n| ==> IsLower(n[i])
    ensures FlagTitle(u + "_" + f + "_" + p + "_" + n) ==
      ([Upper(u[0])] + u[1..]) + " " + (([Upper(f[0])] + f[1..]) + " " + (([Upper(p[0])] + p[1..]) + " " + ([Upper(n[0])] + n[1..])))
  {
    assert u + "_" + f + "_" + p + "_" + n == u + "_" + (f + "_" + (p + "_" + n));
    TitleSplits(u, f + "_" + (p + "_" + n));
    TitleSplits(f, p + "_" + n);
    TitleSplits(p, n);
    LowerWordTitle(u);
    LowerWordTitle(f);
    LowerWordTitle(p);
    LowerWordTitle(n);
  }

  lemma TitleWordsJoin()
    ensures ([Upper('u')] + "se") + " " + (([Upper('f')] + "irst") + " " + (([Upper('p')] + "erson") + " " + ([Upper('n')] + "arrative")))
      == "Use First Person Narrative"
  {
  }

  /** Upper-casing word starts a second time changes nothing. */
  lemma CapitalizeIdempotent(s: string)
    ensures Capitalize(Capitalize(s)) == Capitalize(s)
  {
    var r := Capitalize(s);
    var rr := Capitalize(r);
    forall j | 0 <= j < |s| ensures rr[j] == r[j] {
      UpperIdempotent(s[j]);
    }
  }

  lemma UpperIdempotent(c: char)
    ensures Upper(Upper(c)) == Upper(c)
  {
  }

  /** Formatting a title again gives the same title. */
  lemma FlagTitleIdempotent(id: string)
    ensures FlagTitle(FlagTitle(id)) == FlagTitle(id)
  {
    var t := FlagTitle(id);
    assert !Contains(t, "_") by {
      FirstCharAbsent(t, "_");
    }
    ReplaceAbsent(t, "_", " ");
    CapitalizeIdempotent(ReplaceAll(id, "_", " "));
  }

  // ---------------------------------------------------------------------
  // Configuration
  // ---------------------------------------------------------------------

  const NotConfigured: string := "Not configured"

  /** An environment variable as the page stores it: missing or empty reads "Not configured". */
  function ConfigValue(env: Option<string>): (v: string)
    ensures v == NotConfigured <==> env.None? || env.value == "" || env.value == NotConfigured
    ensures v != NotConfigured ==> env == Some(v)
  {
    if env.Some? && env.value != "" then env.value else NotConfigured
  }

  datatype Config = Config(apiKey: string, envId: string, projectId: string)

  /** Why a toggle failed before or during its requests. */
  datatype ToggleError =
    | KeyNotConfigured
    | EnvNotConfigured
    | ProjectNotConfigured
    | NullResponse        // reading a property of a `null` response body
    | NoFeatureArray      // no recognisable, non-empty feature list
    | NullFeature         // reading `name` of a `null` list element
    | FeatureNotFound
    | RequestFailed       // a later request failed or the server refused the update

  predicate Unset(v: string) {
    v == "" || v == NotConfigured
  }

  /** The three configuration checks, in order; the first failing one wins. */
  function ValidateConfig(c: Config): (r: Option<ToggleError>)
    ensures r.None? <==> !Unset(c.apiKey) && !Unset(c.envId) && !Unset(c.projectId)
    ensures r == Some(KeyNotConfigured) <==> Unset(c.apiKey)
    ensures r == Some(EnvNotConfigured) <==> !Unset(c.apiKey) && Unset(c.envId)
    ensures r == Some(ProjectNotConfigured) <==> !Unset(c.apiKey) && !Unset(c.envId) && Unset(c.projectId)
  {
    if Unset(c.apiKey) then Some(KeyNotConfigured)
    else if Unset(c.envId) then Some(EnvNotConfigured)
    else if Unset(c.projectId) then Some(ProjectNotConfigured)
    else None
  }

  /** The configuration read from the environment passes exactly when all three variables are present and set. */
  lemma LoadedConfigNonEmpty(key: Option<string>, env: Option<string>, project: Option<string>)
    ensures ValidateConfig(Config(ConfigValue(key), ConfigValue(env), ConfigValue(project))).None? <==>
      && key.Some? && !Unset(key.value)
      && env.Some? && !Unset(env.value)
      && project.Some? && !Unset(project.value)
  {
  }

  // ---------------------------------------------------------------------
  // Feature list from the JSON body
  // ---------------------------------------------------------------------

  /** A parsed JSON value; numbers are kept as integers. */
  datatype Json =
    | JNull
    | JBool(b: bool)
    | JNum(n: int)
    | JStr(s: string)
    | JArr(items: seq<Json>)
    | JObj(fields: seq<Field>)

  datatype Field = Field(key: string, value: Json)

  /** The value stored under `key`, if the object has that key. */
  function Member(fields: seq<Field>, key: string): (r: Option<Json>)
    ensures r.None? <==> forall i :: 0 <= i < |fields| ==> fields[i].key != key
    ensures r.Some? ==> exists i :: 0 <= i < |fields| && fields[i].key == key && fields[i].value == r.value
  {
    if |fields| == 0 then None
    else if fields[0].key == key then Some(fields[0].value)
    else
      var rest := Member(fields[1..], key);
      assert forall i :: 1 <= i < |fields| ==> fields[i] == fields[1..][i - 1];
      rest
  }

  /** The items of the value under `key` when that value is an array. */
  function ArrayMember(fields: seq<Field>, key: string): (r: Option<seq<Json>>)
    ensures r.Some? <==> Member(fields, key).Some? && Member(fields, key).value.JArr?
    ensures r.Some? ==> Member(fields, key) == Some(JArr(r.value))
  {
    match Member(fields, key)
    case Some(JArr(items)) => Some(items)
    case _ => None
  }

  /** `"name" in v` for a value that is an object. */
  predicate Named(v: Json) {
    v.JObj? && Member(v.fields, "name").Some?
  }

  /** The first member (in key order) whose value is an object with a `name`, key included. */
  function FirstNamed(fields: seq<Field>): (r: Option<Field>)
    ensures r.None? <==> forall i :: 0 <= i < |fields| ==> !Named(fields[i].value)
    ensures r.Some? ==> exists i :: (0 <= i < |fields| && fields[i] == r.value && Named(r.value.value)
      && forall j :: 0 <= j < i ==> !Named(fields[j].value))
  {
    if |fields| == 0 then None
    else if Named(fields[0].value) then Some(fields[0])
    else
      var rest := FirstNamed(fields[1..]);
      assert forall i :: 1 <= i < |fields| ==> fields[i] == fields[1..][i - 1];
      if rest.None? then rest
      else
        var i :| 0 <= i < |fields[1..]| && fields[1..][i] == rest.value && Named(rest.value.value)
          && forall j :: 0 <= j < i ==> !Named(fields[1..][j].value);
        assert fields[i + 1] == rest.value;
        rest
  }

  /**
   * The fallback list: the first named member, kept only when its key is
   * truthy. `find` returns that key and `if (featureKeys)` rejects the empty
   * one, even when a later member is named too.
   */
  function NamedList(fields: seq<Field>): (r: Option<seq<Json>>)
    ensures r.Some? <==> FirstNamed(fields).Some? && FirstNamed(fields).value.key != ""
    ensures r.Some? ==> r.value == [FirstNamed(fields).value.value] && Named(r.value[0])
  {
    match FirstNamed(fields)
    case Some(f) => if f.key != "" then Some([f.value]) else None
    case None => None
  }

  /** The candidate list before the emptiness check; `None` when nothing qualifies. */
  function Candidates(data: Json): (r: Option<seq<Json>>)
    requires !data.JNull?
    ensures data.JArr? ==> r == Some(data.items)
    ensures data.JBool? || data.JNum? || data.JStr? ==> r.None?
    ensures data.JObj? ==> (r.None? <==>
      && ArrayMember(data.fields, "results").None? && ArrayMember(data.fields, "features").None?
      && ArrayMember(data.fields, "data").None? && NamedList(data.fields).None?)
    ensures data.JObj? && r.Some? ==>
      || r == ArrayMember(data.fields, "results") || r == ArrayMember(data.fields, "features")
      || r == ArrayMember(data.fields, "data") || r == NamedList(data.fields)
  {
    match data
    case JArr(items) => Some(items)
    case JObj(fields) =>
      if ArrayMember(fields, "results").Some? then ArrayMember(fields, "results")
      else if ArrayMember(fields, "features").Some? then ArrayMember(fields, "features")
      else if ArrayMember(fields, "data").Some? then ArrayMember(fields, "data")
      else if |fields| > 0 then NamedList(fields)
      else None
    case _ => None
  }

  /**
   * The list of features in a projects response: the body itself when it is
   * an array, else the first of `results`, `features`, `data` that is an
   * array, else the first named object member wrapped in a list. A missing
   * or empty list is an error; so is a `null` body.
   */
  function ExtractFeatures(data: Json): (r: Result<seq<Json>, ToggleError>)
    ensures r.Ok? ==> |r.value| > 0
    ensures r.Err? ==> r.error == NullResponse || r.error == NoFeatureArray
    ensures r == Err(NullResponse) <==> data.JNull?
    ensures data.JArr? ==> (r.Ok? <==> |data.items| > 0) && (r.Ok? ==> r.value == data.items)
    ensures data.JBool? || data.JNum? || data.JStr? ==> r == Err(NoFeatureArray)
    ensures data.JObj? && ArrayMember(data.fields, "results").Some? ==>
      var items := ArrayMember(data.fields, "results").value;
      (r.Ok? <==> |items| > 0) && (r.Ok? ==> r.value == items)
    ensures data.JObj? && ArrayMember(data.fields, "results").None? && ArrayMember(data.fields, "features").Some? ==>
      var items := ArrayMember(data.fields, "features").value;
      (r.Ok? <==> |items| > 0) && (r.Ok? ==> r.value == items)
    ensures (data.JObj? && ArrayMember(data.fields, "results").None? && ArrayMember(data.fields, "features").None?
             && ArrayMember(data.fields, "data").Some?) ==>
      var items := ArrayMember(data.fields, "data").value;
      (r.Ok? <==> |items| > 0) && (r.Ok? ==> r.value == items)
    ensures (data.JObj? && ArrayMember(data.fields, "results").None? && ArrayMember(data.fields, "features").None?
             && ArrayMember(data.fields, "data").None?) ==>
      r == (if NamedList(data.fields).Some? then Ok(NamedList(data.fields).value) else Err(NoFeatureArray))
  {
    if data.JNull? then Err(NullResponse)
    else
      var c := Candidates(data);
      if c.None? || |c.value| == 0 then Err(NoFeatureArray) else Ok(c.value)
  }

  /**
   * Wrapping a list as the `results` of an object changes nothing: the
   * envelope and the bare array give the same feature list.
   */
  lemma ResultsEnvelope(items: seq<Json>, rest: seq<Field>)
    ensures ExtractFeatures(JObj([Field("results", JArr(items))] + rest)) == ExtractFeatures(JArr(items))
  {
    var fields := [Field("results", JArr(items))] + rest;
    assert fields[0].key == "results";
    assert Member(fields, "results") == Some(JArr(items));
  }

  /** `results` is preferred over `features` and `data`, even when it is empty. */
  lemma EmptyResultsWin(fields: seq<Field>)
    requires Member(fields, "results") == Some(JArr([]))
    ensures ExtractFeatures(JObj(fields)) == Err(NoFeatureArray)
  {
  }

  /**
   * An object with no array under the three keys yields exactly its first
   * named member, as a one-element list, unless that member's key is empty.
   */
  lemma NamedFallback(fields: seq<Field>)
    requires ArrayMember(fields, "results").None? && ArrayMember(fields, "features").None?
    requires ArrayMember(fields, "data").None?
    ensures FirstNamed(fields).Some? && FirstNamed(fields).value.key != "" ==>
      ExtractFeatures(JObj(fields)) == Ok([FirstNamed(fields).value.value])
    ensures FirstNamed(fields).None? || FirstNamed(fields).value.key == "" ==>
      ExtractFeatures(JObj(fields)) == Err(NoFeatureArray)
  {
  }

  /**
   * A named member under the empty key is found first and then rejected, so
   * a later named member is never reached.
   */
  lemma EmptyKeyRejected(v: Json, rest: seq<Field>)
    requires Named(v)
    requires ArrayMember(rest, "results").None? && ArrayMember(rest, "features").None?
    requires ArrayMember(rest, "data").None?
    ensures ExtractFeatures(JObj([Field("", v)] + rest)) == Err(NoFeatureArray)
  {
    var fields := [Field("", v)] + rest;
    assert fields[1..] == rest;
    assert FirstNamed(fields) == Some(Field("", v));
  }

  /** The `name` of a list element, read the way `f.name` is. */
  function NameOf(v: Json): Option<Json> {
    if v.JObj? then Member(v.fields, "name") else None
  }

  /** Element `v` is the feature called `id`. */
  predicate Matches(v: Json, id: string) {
    NameOf(v) == Some(JStr(id))
  }

  /**
   * `featuresArray.find(f => f.name === flagId)`, as a position: the first
   * match, unless a `null` element comes before any match (reading its
   * `name` throws); no match at all is an error.
   */
  function FindFeature(items: seq<Json>, id: string): (r: Result<nat, ToggleError>)
    ensures r.Ok? ==>
      && r.value < |items| && Matches(items[r.value], id)
      && forall j :: 0 <= j < r.value ==> items[j] != JNull && !Matches(items[j], id)
    ensures r == Err(FeatureNotFound) <==> forall j :: 0 <= j < |items| ==> items[j] != JNull && !Matches(items[j], id)
    ensures r.Err? ==> r.error == FeatureNotFound || r.error == NullFeature
    ensures r == Err(NullFeature) ==> exists k :: (0 <= k < |items| && items[k] == JNull
      && forall j :: 0 <= j < k ==> !Matches(items[j], id))
  {
    if |items| == 0 then Err(FeatureNotFound)
    else if items[0] == JNull then Err(NullFeature)
    else if Matches(items[0], id) then Ok(0)
    else
      var rest := FindFeature(items[1..], id);
      assert forall j :: 1 <= j < |items| ==> items[j] == items[1..][j - 1];
      match rest
      case Ok(k) => Ok(k + 1)
      case Err(e) =>
        if e != NullFeature then Err(e)
        else
          var k :| 0 <= k < |items[1..]| && items[1..][k] == JNull
            && forall j :: 0 <= j < k ==> !Matches(items[1..][j], id);
          assert items[k + 1] == JNull;
          Err(e)
  }

  // ---------------------------------------------------------------------
  // Local flag values
  // ---------------------------------------------------------------------

  type Flags = map<string, bool>

  /** `localFlags[id]` read as a condition: a missing key is off. */
  function Enabled(flags: Flags, id: string): (b: bool)
    ensures b <==> id in flags && flags[id]
  {
    if id in flags then flags[id] else false
  }

  /** The status label of a flag's card. */
  function StatusLabel(flags: Flags, id: string): (r: string)
    ensures r == "Enabled" <==> Enabled(flags, id)
    ensures r == "Disabled" <==> !Enabled(flags, id)
  {
    if Enabled(flags, id) then "Enabled" else "Disabled"
  }

  /** The card description: the flag's own text, or a generated one when it is missing or empty. */
  function Description(description: Option<string>, id: string): (r: string)
    ensures description.Some? && description.value != "" ==> r == description.value
    ensures description.None? || description.value == "" ==> r == "Controls feature: " + id && r[|"Controls feature: "|..] == id
  {
    if description.Some? && description.value != "" then description.value else "Controls feature: " + id
  }

  /**
   * The local flags built from the keys of `getAllFlags()`, one entry per
   * key, each valued by `hasFeature`; a refresh builds them the same way.
   */
  function InitFlags(keys: seq<string>, hasFeature: string -> bool): (r: Flags)
    ensures r.Keys == set k | k in keys
    ensures forall k :: k in r ==> r[k] == hasFeature(k)
  {
    if |keys| == 0 then map[]
    else
      var rest := InitFlags(keys[1..], hasFeature);
      assert forall k :: k in keys <==> k == keys[0] || k in keys[1..];
      rest[keys[0] := hasFeature(keys[0])]
  }

  /** The optimistic flip shown at once: only `id` changes, to the negation of what was shown. */
  function Flip(flags: Flags, id: string): (r: Flags)
    ensures r.Keys == flags.Keys + {id}
    ensures Enabled(r, id) == !Enabled(flags, id)
    ensures forall k :: k in flags && k != id ==> r[k] == flags[k]
  {
    flags[id := !Enabled(flags, id)]
  }

  /** How the server answered the requests that follow the feature lookup. */
  datatype Server =
    | ServerFailed
    | Confirmed(enabled: bool)

  /**
   * Everything a toggle checks and requests, in order: configuration, the
   * feature list, the feature, then the server's confirmed value.
   */
  function Attempt(c: Config, data: Json, id: string, server: Server): (r: Result<bool, ToggleError>)
    ensures ValidateConfig(c).Some? ==> r == Err(ValidateConfig(c).value)
    ensures ValidateConfig(c).None? && ExtractFeatures(data).Err? ==> r == Err(ExtractFeatures(data).error)
    ensures (ValidateConfig(c).None? && ExtractFeatures(data).Ok?
             && FindFeature(ExtractFeatures(data).value, id).Err?) ==>
      r == Err(FindFeature(ExtractFeatures(data).value, id).error)
    ensures (ValidateConfig(c).None? && ExtractFeatures(data).Ok?
             && FindFeature(ExtractFeatures(data).value, id).Ok?) ==>
      r == (if server.Confirmed? then Ok(server.enabled) else Err(RequestFailed))
    ensures r.Ok? ==>
      && ValidateConfig(c).None?
      && ExtractFeatures(data).Ok?
      && FindFeature(ExtractFeatures(data).value, id).Ok?
      && server == Confirmed(r.value)
  {
    if ValidateConfig(c).Some? then Err(ValidateConfig(c).value)
    else
      var features := ExtractFeatures(data);
      if features.Err? then Err(features.error)
      else
        var found := FindFeature(features.value, id);
        if found.Err? then Err(found.error)
        else match server
          case ServerFailed => Err(RequestFailed)
          case Confirmed(v) => Ok(v)
  }

  /**
   * The value the failure path settles on: the server's state when it could
   * be read, else the SDK's `hasFeature`.
   */
  function Recovered(serverState: Option<bool>, hasFeature: string -> bool, id: string): (v: bool)
    ensures serverState.Some? ==> v == serverState.value
    ensures serverState.None? ==> v == hasFeature(id)
  {
    serverState.GetOr(hasFeature(id))
  }

  /**
   * The writes `handleToggle` itself makes: flip `id` at once, then
   * overwrite it with the server's confirmed value on success, or with the
   * recovered value on failure. `Settled` adds what the page's init effect
   * does afterwards.
   */
  function Toggle(flags: Flags, c: Config, data: Json, id: string, server: Server,
                  serverState: Option<bool>, hasFeature: string -> bool): (r: Flags)
    ensures r.Keys == flags.Keys + {id}
    ensures forall k :: k in flags && k != id ==> r[k] == flags[k]
  {
    var shown := Flip(flags, id);
    match Attempt(c, data, id, server)
    case Ok(v) => shown[id := v]
    case Err(_) => shown[id := Recovered(serverState, hasFeature, id)]
  }

  /** The handler's last write: the server-confirmed value on success, the recovered one on failure. */
  lemma ToggleSettles(flags: Flags, c: Config, data: Json, id: string, server: Server,
                      serverState: Option<bool>, hasFeature: string -> bool)
    ensures Attempt(c, data, id, server).Ok? ==>
      Toggle(flags, c, data, id, server, serverState, hasFeature)[id] == Attempt(c, data, id, server).value
    ensures Attempt(c, data, id, server).Err? ==>
      Toggle(flags, c, data, id, server, serverState, hasFeature)[id] == Recovered(serverState, hasFeature, id)
  {
  }

  /**
   * The local flags once the page has re-rendered after a toggle. The
   * success path calls `refreshFlags`, whose loading updates re-render the
   * provider; the provider hands out a new `hasFeature` function on every
   * render, so the page's init effect, which depends on it, runs again
   * after the handler's last write and rebuilds every entry from the keys
   * of `getAllFlags()` and the refreshed `hasFeature`. The failure path
   * does not touch the provider, so the handler's writes stand.
   */
  function Settled(flags: Flags, c: Config, data: Json, id: string, server: Server,
                   serverState: Option<bool>, hasFeature: string -> bool,
                   keys: seq<string>, refreshed: string -> bool): (r: Flags)
    ensures Attempt(c, data, id, server).Ok? ==>
      r.Keys == (set k | k in keys) && forall k :: k in r ==> r[k] == refreshed(k)
    ensures Attempt(c, data, id, server).Err? ==>
      && r.Keys == flags.Keys + {id}
      && r[id] == Recovered(serverState, hasFeature, id)
      && forall k :: k in flags && k != id ==> r[k] == flags[k]
  {
    var written := Toggle(flags, c, data, id, server, serverState, hasFeature);
    if Attempt(c, data, id, server).Ok? then InitFlags(keys, refreshed) else written
  }

  /**
   * After a successful toggle the flag shows what the refreshed SDK says,
   * not the server-confirmed value, whenever the two differ; a flag id
   * outside `getAllFlags()` disappears from the page altogether.
   */
  lemma RefreshOverridesConfirmed(flags: Flags, c: Config, data: Json, id: string, v: bool,
                                  serverState: Option<bool>, hasFeature: string -> bool,
                                  keys: seq<string>, refreshed: string -> bool)
    requires Attempt(c, data, id, Confirmed(v)).Ok?
    ensures Attempt(c, data, id, Confirmed(v)).value == v
    ensures id in keys ==>
      Settled(flags, c, data, id, Confirmed(v), serverState, hasFeature, keys, refreshed)[id] == refreshed(id)
    ensures id !in keys ==> id !in Settled(flags, c, data, id, Confirmed(v), serverState, hasFeature, keys, refreshed)
  {
  }

  /**
   * A configured toggle of a feature listed in a `results` envelope
   * succeeds with the server's confirmed value, and the handler's last
   * write shows it.
   */
  lemma ConfiguredToggleSucceeds(flags: Flags, c: Config, items: seq<Json>, rest: seq<Field>, id: string, v: bool,
                                 serverState: Option<bool>, hasFeature: string -> bool)
    requires ValidateConfig(c).None? && FindFeature(items, id).Ok?
    ensures Attempt(c, JObj([Field("results", JArr(items))] + rest), id, Confirmed(v)) == Ok(v)
    ensures Toggle(flags, c, JObj([Field("results", JArr(items))] + rest), id, Confirmed(v), serverState, hasFeature)[id] == v
  {
    ResultsEnvelope(items, rest);
    assert |items| > 0;
  }

  /**
   * With the configuration missing none of the toggle's own requests is
   * made, so the outcome depends on neither their response nor the server:
   * the flag takes the recovered value. The catch block's recovery requests
   * still run, with the "Not configured" credentials; their outcome is
   * `serverState`.
   */
  lemma UnconfiguredToggle(flags: Flags, c: Config, data: Json, data2: Json, id: string,
                           server: Server, server2: Server, serverState: Option<bool>, hasFeature: string -> bool)
    requires ValidateConfig(c).Some?
    ensures Toggle(flags, c, data, id, server, serverState, hasFeature) ==
            Toggle(flags, c, data2, id, server2, serverState, hasFeature)
    ensures Toggle(flags, c, data, id, server, serverState, hasFeature) ==
            flags[id := Recovered(serverState, hasFeature, id)]
  {
  }

  /** Two optimistic flips of a present flag restore the map. */
  lemma FlipTwice(flags: Flags, id: string)
    requires id in flags
    ensures Flip(Flip(flags, id), id) == flags
  {
  }

  /** Toggling keeps one entry per key from `getAllFlags()`, as long as the id is one of them. */
  lemma ToggleKeepsKeys(keys: seq<string>, hasFeature: string -> bool, c: Config, data: Json, id: string,
                        server: Server, serverState: Option<bool>)
    requires id in keys
    ensures Toggle(InitFlags(keys, hasFeature), c, data, id, server, serverState, hasFeature).Keys == set k | k in keys
  {
  }
}

=== FILE: narrative.dfy ===
/**
 * The narrative-style pronoun rewrite applied to story text
 * (`transformContent` in NarrativeStyle.tsx, duplicated in StoryReader.tsx).
 * The rewrite is literal and grammar-blind: "You am" and "I are" are
 * expected outputs, not defects of the model.
 */
module Narrative {
  import opened Text

  /** The two reading modes chosen by the `use_first_person_narrative` flag. */
  datatype Style = FirstPerson | ThirdPerson

  /** The style a reader session uses for a given flag value. */
  function StyleOf(useFirstPerson: bool): (style: Style)
    ensures style == FirstPerson <==> useFirstPerson
  {
    if useFirstPerson then FirstPerson else ThirdPerson
  }

  /** The first-person rewrite: every "You " becomes "I ", then every "Your " becomes "My ". */
  function ToFirstPerson(content: string): string {
    ReplaceAll(ReplaceAll(content, "You ", "I "), "Your ", "My ")
  }

  /** The third-person rewrite: every "I " becomes "You ", then every "My " becomes "Your ". */
  function ToThirdPerson(content: string): string {
    ReplaceAll(ReplaceAll(content, "I ", "You "), "My ", "Your ")
  }

  /**
   * The rewrite gated by a prefix guard: first-person text is left alone when
   * it already starts with "I", second-person text when it already starts
   * with "You" (which includes "Your" and "You’re").
   */
  function Transform(content: string, useFirstPerson: bool): (r: string)
    ensures useFirstPerson && IsPrefix("I", content) ==> r == content
    ensures !useFirstPerson && IsPrefix("You", content) ==> r == content
    ensures useFirstPerson ==> |r| <= |content|
    ensures !useFirstPerson ==> |r| >= |content|
    ensures content == [] ==> r == []
  {
    if useFirstPerson then
      if !IsPrefix("I", content) then ToFirstPerson(content) else content
    else
      if !IsPrefix("You", content) then ToThirdPerson(content) else content
  }

  /** The rewritten text is free of the pronouns it replaces. */
  lemma FirstPersonNoResidue(content: string)
    ensures !Contains(ToFirstPerson(content), "You ")
    ensures !Contains(ToFirstPerson(content), "Your ")
  {
    var t := ReplaceAll(content, "You ", "I ");
    assert Separated("I ", "You ") && Separated("My ", "You ") && Separated("My ", "Your ");
    NoResidue(content, "You ", "I ", "You ");
    NoResidue(t, "Your ", "My ", "You ");
    NoResidue(t, "Your ", "My ", "Your ");
  }

  /** The rewritten text is free of the pronouns it replaces. */
  lemma ThirdPersonNoResidue(content: string)
    ensures !Contains(ToThirdPerson(content), "I ")
    ensures !Contains(ToThirdPerson(content), "My ")
  {
    var t := ReplaceAll(content, "I ", "You ");
    assert Separated("You ", "I ") && Separated("Your ", "I ") && Separated("Your ", "My ");
    NoResidue(content, "I ", "You ", "I ");
    NoResidue(t, "My ", "Your ", "I ");
    NoResidue(t, "My ", "Your ", "My ");
  }

  /**
   * Matching is literal and replacements never create new matches: whenever
   * the guard lets the rewrite run, no replaced pronoun is left.
   */
  lemma TransformNoResidue(content: string, useFirstPerson: bool)
    ensures useFirstPerson && !IsPrefix("I", content) ==>
      !Contains(Transform(content, true), "You ") && !Contains(Transform(content, true), "Your ")
    ensures !useFirstPerson && !IsPrefix("You", content) ==>
      !Contains(Transform(content, false), "I ") && !Contains(Transform(content, false), "My ")
  {
    FirstPersonNoResidue(content);
    ThirdPersonNoResidue(content);
  }

  /** Each first-person hit shortens the text by exactly two characters. */
  lemma FirstPersonLength(content: string)
    ensures |ToFirstPerson(content)| ==
      |content| - 2 * (Count(content, "You ") + Count(ReplaceAll(content, "You ", "I "), "Your "))
  {
    var t := ReplaceAll(content, "You ", "I ");
    var c1, c2 := Count(content, "You "), Count(t, "Your ");
    ReplaceAllLength(content, "You ", "I ");
    ReplaceAllLength(t, "Your ", "My ");
    assert |"I "| - |"You "| == -2 && |"My "| - |"Your "| == -2;
    assert c1 * (|"I "| - |"You "|) == -2 * c1;
    assert c2 * (|"My "| - |"Your "|) == -2 * c2;
  }

  /** Each third-person hit lengthens the text by exactly two characters. */
  lemma ThirdPersonLength(content: string)
    ensures |ToThirdPerson(content)| ==
      |content| + 2 * (Count(content, "I ") + Count(ReplaceAll(content, "I ", "You "), "My "))
  {
    var t := ReplaceAll(content, "I ", "You ");
    var c1, c2 := Count(content, "I "), Count(t, "My ");
    ReplaceAllLength(content, "I ", "You ");
    ReplaceAllLength(t, "My ", "Your ");
    assert |"You "| - |"I "| == 2 && |"Your "| - |"My "| == 2;
    assert c1 * (|"You "| - |"I "|) == 2 * c1;
    assert c2 * (|"Your "| - |"My "|) == 2 * c2;
  }

  /**
   * Transforming twice with the same flag is transforming once. This is what
   * makes the second rewrite StoryReader triggers, by passing already
   * rewritten text to NarrativeStyle, harmless.
   */
  lemma TransformIdempotent(content: string, useFirstPerson: bool)
    ensures Transform(Transform(content, useFirstPerson), useFirstPerson) == Transform(content, useFirstPerson)
  {
    var t := Transform(content, useFirstPerson);
    if useFirstPerson && !IsPrefix("I", content) && !IsPrefix("I", t) {
      FirstPersonNoResidue(content);
      ReplaceAbsent(t, "You ", "I ");
      ReplaceAbsent(t, "Your ", "My ");
    } else if !useFirstPerson && !IsPrefix("You", content) && !IsPrefix("You", t) {
      ThirdPersonNoResidue(content);
      ReplaceAbsent(t, "I ", "You ");
      ReplaceAbsent(t, "My ", "Your ");
    }
  }
}

=== FILE: reader.dfy ===
/**
 * The story reader session of StoryReader.tsx: mounting a reader on a
 * story and segment, loading segments, recording choices, completing a
 * story, and which buttons each kind of segment offers. Loading is
 * synchronous here; the artificial delay and spinner are presentation.
 * The catalog the reader draws on is a parameter `stories`; the reader of
 * the application uses `Catalog.Catalog`.
 */
module Reader {
  import opened Wrappers
  import opened Catalog
  import opened Narrative
  import opened Storage

  /**
   * A reading session. `current` is `None` when the "Story segment not
   * found" view is shown; `style` is fixed when the session starts.
   */
  datatype Session = Session(
    storyId: string,
    style: Style,
    current: Option<Segment>,
    userChoices: seq<string>,
    completed: bool)

  /**
   * StoryReader's own copy of the pronoun rewrite, keyed by style: text
   * already in the target voice is kept, and otherwise none of the pronouns
   * the style replaces is left.
   */
  function Restyle(content: string, style: Style): (r: string)
    ensures style == FirstPerson && Text.IsPrefix("I", content) ==> r == content
    ensures style == ThirdPerson && Text.IsPrefix("You", content) ==> r == content
    ensures style == FirstPerson && !Text.IsPrefix("I", content) ==>
      !Text.Contains(r, "You ") && !Text.Contains(r, "Your ")
    ensures style == ThirdPerson && !Text.IsPrefix("You", content) ==>
      !Text.Contains(r, "I ") && !Text.Contains(r, "My ")
  {
    if style == FirstPerson && !Text.IsPrefix("I", content) then
      FirstPersonNoResidue(content);
      Narrative.ToFirstPerson(content)
    else if style == ThirdPerson && !Text.IsPrefix("You", content) then
      ThirdPersonNoResidue(content);
      Narrative.ToThirdPerson(content)
    else
      content
  }

  /** The reader's copy and NarrativeStyle's rewrite are the same function. */
  lemma RestyleAgrees(content: string, style: Style)
    ensures Restyle(content, style) == Transform(content, style == FirstPerson)
  {
  }

  /**
   * Segment lookup: an unknown story behaves as an empty story, so an
   * unknown story and an unknown segment both give `None`.
   */
  function Lookup(stories: Stories, storyId: string, segmentId: string): (r: Option<Segment>)
    ensures r.None? <==> storyId !in stories || segmentId !in stories[storyId]
    ensures r.Some? ==> r.value == stories[storyId][segmentId]
  {
    var story := if storyId in stories then stories[storyId] else map[];
    if segmentId in story then Some(story[segmentId]) else None
  }

  /** The segment as displayed: only its content is rewritten. */
  function Display(segment: Segment, style: Style): (r: Segment)
    ensures r.id == segment.id && r.choices == segment.choices
    ensures r.theme == segment.theme && r.isEnding == segment.isEnding
    ensures r.content == Restyle(segment.content, style)
  {
    segment.(content := Restyle(segment.content, style))
  }

  /** `loadSegment`: show the segment, or the not-found view. */
  function Load(stories: Stories, s: Session, segmentId: string): (r: Session)
    ensures r.storyId == s.storyId && r.style == s.style
    ensures r.userChoices == s.userChoices && r.completed == s.completed
    ensures r.current.None? <==> s.storyId !in stories || segmentId !in stories[s.storyId]
    ensures r.current.Some? ==> r.current.value == Display(stories[s.storyId][segmentId], s.style)
  {
    var found := Lookup(stories, s.storyId, segmentId);
    s.(current := if found.Some? then Some(Display(found.value, s.style)) else None)
  }

  /**
   * Mounting a reader: no choices yet, the completion flag read from
   * storage (it can only turn `completed` on), then the initial segment
   * loaded.
   */
  function Mount(stories: Stories, storyId: string, initialSegmentId: string, style: Style, store: Store): (r: Session)
    ensures r.storyId == storyId && r.style == style && r.userChoices == []
    ensures r.completed <==> IsCompleted(store, storyId)
    ensures r.current.None? <==> storyId !in stories || initialSegmentId !in stories[storyId]
    ensures r.current.Some? ==> r.current.value == Display(stories[storyId][initialSegmentId], style)
  {
    var initial := Session(storyId, style, None, [], false);
    var flagged := if IsCompleted(store, storyId) then initial.(completed := true) else initial;
    Load(stories, flagged, initialSegmentId)
  }

  /** `handleChoice`: record the choice id, then load its target. */
  function Choose(stories: Stories, s: Session, c: Choice): (r: Session)
    ensures r.userChoices == s.userChoices + [c.id]
    ensures r.storyId == s.storyId && r.style == s.style && r.completed == s.completed
    ensures r.current.None? <==> s.storyId !in stories || c.nextSegmentId !in stories[s.storyId]
    ensures r.current.Some? ==> r.current.value == Display(stories[s.storyId][c.nextSegmentId], s.style)
  {
    Load(stories, s.(userChoices := s.userChoices + [c.id]), c.nextSegmentId)
  }

  /** What completing produces: the new session, the new store, the callback payload. */
  datatype Completion = Completion(session: Session, store: Store, payload: seq<string>)

  /**
   * `handleComplete`: write "true" under the completion key, mark the
   * session completed, and hand the accumulated choices to the callback.
   */
  function Complete(s: Session, store: Store): (r: Completion)
    ensures r.session == s.(completed := true)
    ensures Get(r.store, CompletedKey(s.storyId)) == Some("true")
    ensures SameExcept(store, r.store, {CompletedKey(s.storyId)})
    ensures r.payload == s.userChoices
  {
    Completion(s.(completed := true), store[CompletedKey(s.storyId) := "true"], s.userChoices)
  }

  /** The buttons a view offers. */
  datatype Button = ChoiceButton(choice: Choice) | CompleteButton(enabled: bool) | ReturnButton

  /**
   * The rendering rule: the not-found view offers only Return; an ending
   * offers Complete (disabled once completed) and Return; any other segment
   * offers exactly its own choices, in order.
   */
  function Buttons(s: Session): (r: seq<Button>)
    ensures s.current.None? ==> r == [ReturnButton]
    ensures s.current.Some? && s.current.value.isEnding ==> r == [CompleteButton(!s.completed), ReturnButton]
    ensures s.current.Some? && !s.current.value.isEnding ==>
      |r| == |s.current.value.choices| &&
      forall i :: 0 <= i < |r| ==> r[i] == ChoiceButton(s.current.value.choices[i])
  {
    match s.current
    case None => [ReturnButton]
    case Some(seg) =>
      if seg.isEnding then [CompleteButton(!s.completed), ReturnButton]
      else seq(|seg.choices|, i requires 0 <= i < |seg.choices| => ChoiceButton(seg.choices[i]))
  }

  /** What a button press signals to the enclosing page. */
  datatype Event = NoEvent | Finished(choices: seq<string>) | Exited

  datatype Step = Step(session: Session, store: Store, event: Event)

  /**
   * Pressing a button: a choice records its id and moves on without
   * touching storage; only an enabled Complete stores the flag and reports
   * the choices; Return reports leaving; a disabled button does nothing.
   */
  function Press(stories: Stories, s: Session, store: Store, b: Button): (r: Step)
    ensures r.event.Finished? <==> b == CompleteButton(true)
    ensures r.event == Exited <==> b == ReturnButton
    ensures r.event.Finished? ==>
      r.event.choices == s.userChoices && r.session.completed && IsCompleted(r.store, s.storyId)
    ensures !r.event.Finished? ==> r.store == store
    ensures b.ChoiceButton? ==>
      r.session.userChoices == s.userChoices + [b.choice.id] && r.session.completed == s.completed
    ensures b.ChoiceButton? ==> r.session == Choose(stories, s, b.choice)
    ensures b == CompleteButton(false) || b == ReturnButton ==> r.session == s
  {
    match b
    case ChoiceButton(c) => Step(Choose(stories, s, c), store, NoEvent)
    case CompleteButton(enabled) =>
      if enabled then
        var done := Complete(s, store);
        Step(done.session, done.store, Finished(done.payload))
      else Step(s, store, NoEvent)
    case ReturnButton => Step(s, store, Exited)
  }

  /** Completion is monotone: no button press turns `completed` off. */
  lemma PressKeepsCompleted(stories: Stories, s: Session, store: Store, b: Button)
    ensures s.completed ==> Press(stories, s, store, b).session.completed
    ensures Press(stories, s, store, b).session.storyId == s.storyId
  {
  }

  /**
   * Completing from an ending stores the flag, signals the accumulated
   * choices once, and leaves no button that could signal them again.
   */
  lemma CompleteFiresOnce(stories: Stories, s: Session, store: Store)
    requires s.current.Some? && s.current.value.isEnding && !s.completed
    ensures CompleteButton(true) in Buttons(s)
    ensures Press(stories, s, store, CompleteButton(true)).event == Finished(s.userChoices)
    ensures IsCompleted(Press(stories, s, store, CompleteButton(true)).store, s.storyId)
    ensures var after := Press(stories, s, store, CompleteButton(true));
      forall b :: b in Buttons(after.session) ==> !Press(stories, after.session, after.store, b).event.Finished?
  {
    var after := Press(stories, s, store, CompleteButton(true));
    assert Buttons(after.session) == [CompleteButton(false), ReturnButton];
  }

  /**
   * The session agrees with the catalog: a shown segment is the displayed
   * form of the catalog segment with the same id in the session's story.
   */
  ghost predicate Consistent(stories: Stories, s: Session) {
    s.current.Some? ==>
      && s.storyId in stories
      && s.current.value.id in stories[s.storyId]
      && s.current.value == Display(stories[s.storyId][s.current.value.id], s.style)
  }

  /** In a well-formed catalog, loading always yields a session that agrees with it. */
  lemma LoadConsistent(stories: Stories, s: Session, segmentId: string)
    requires CatalogWellFormed(stories)
    ensures Consistent(stories, Load(stories, s, segmentId))
  {
    if s.storyId in stories && segmentId in stories[s.storyId] {
      assert SegmentWellFormed(segmentId, stories[s.storyId][segmentId], stories[s.storyId]);
    }
  }

  /**
   * In a well-formed catalog, following a choice the current segment
   * offers always reaches an existing segment.
   */
  lemma ChooseOfferedFound(stories: Stories, s: Session, c: Choice)
    requires CatalogWellFormed(stories)
    requires Consistent(stories, s) && s.current.Some? && c in s.current.value.choices
    ensures Choose(stories, s, c).current.Some?
    ensures Consistent(stories, Choose(stories, s, c))
  {
    var story := stories[s.storyId];
    var id := s.current.value.id;
    assert SegmentWellFormed(id, story[id], story);
    assert c in story[id].choices;
    LoadConsistent(stories, s.(userChoices := s.userChoices + [c.id]), c.nextSegmentId);
  }

  /** Choosing each choice of `choices` in turn. */
  function Play(stories: Stories, s: Session, choices: seq<Choice>): Session
    decreases |choices|
  {
    if |choices| == 0 then s else Play(stories, Choose(stories, s, choices[0]), choices[1..])
  }

  /** Each choice of `choices` is offered by the segment shown when it is made. */
  predicate Offered(stories: Stories, s: Session, choices: seq<Choice>)
    decreases |choices|
  {
    |choices| == 0 ||
    (s.current.Some? && choices[0] in s.current.value.choices
     && Offered(stories, Choose(stories, s, choices[0]), choices[1..]))
  }

  /**
   * In a well-formed catalog, a reader that only follows offered choices
   * never reaches the not-found view, and its recorded choices are exactly
   * the ids it followed, in order.
   */
  lemma {:induction false} PlayStaysFound(stories: Stories, s: Session, choices: seq<Choice>)
    requires CatalogWellFormed(stories)
    requires Consistent(stories, s) && s.current.Some? && Offered(stories, s, choices)
    ensures Play(stories, s, choices).current.Some?
    ensures Play(stories, s, choices).userChoices ==
      s.userChoices + seq(|choices|, i requires 0 <= i < |choices| => choices[i].id)
    decreases |choices|
  {
    if |choices| > 0 {
      ChooseOfferedFound(stories, s, choices[0]);
      var next := Choose(stories, s, choices[0]);
      PlayStaysFound(stories, next, choices[1..]);
      assert seq(|choices|, i requires 0 <= i < |choices| => choices[i].id) ==
        [choices[0].id] + seq(|choices| - 1, i requires 0 <= i < |choices| - 1 => choices[1..][i].id);
    }
  }

  /** In a well-formed catalog every story opens on its start segment. */
  lemma MountStartFound(stories: Stories, storyId: string, style: Style, store: Store)
    requires CatalogWellFormed(stories) && storyId in stories
    ensures Mount(stories, storyId, Start, style, store).current.Some?
    ensures Consistent(stories, Mount(stories, storyId, Start, style, store))
  {
    assert StoryWellFormed(stories[storyId]);
    LoadConsistent(stories, Session(storyId, style, None, [], IsCompleted(store, storyId)), Start);
  }

  /** A story id outside the catalog always shows the not-found view. */
  lemma UnknownStoryNotFound(stories: Stories, storyId: string, segmentId: string, style: Style, store: Store)
    requires storyId !in stories
    ensures Mount(stories, storyId, segmentId, style, store).current.None?
    ensures Buttons(Mount(stories, storyId, segmentId, style, store)) == [ReturnButton]
  {
  }

  /**
   * NarrativeStyle rewrites the reader's already rewritten text again with
   * the same flag; by idempotence the page shows the reader's text.
   */
  lemma RenderedTextStable(stories: Stories, s: Session)
    requires Consistent(stories, s) && s.current.Some?
    ensures Transform(s.current.value.content, s.style == FirstPerson) == s.current.value.content
  {
    var raw := stories[s.storyId][s.current.value.id].content;
    RestyleAgrees(raw, s.style);
    TransformIdempotent(raw, s.style == FirstPerson);
  }

  // ---------------------------------------------------------------------
  // The application's catalog
  // ---------------------------------------------------------------------

  /** "default-story", the reader's fallback id, is not in the catalog. */
  lemma DefaultStoryNotInCatalog()
    ensures "default-story" !in Catalog.Catalog
  {
  }

  /**
   * Every story of the application opens on a segment, and any playthrough
   * that follows offered choices from there stays on existing segments.
   */
  lemma CatalogPlaythrough(storyId: string, style: Style, store: Store, choices: seq<Choice>)
    requires storyId in Catalog.Catalog
    requires Offered(Catalog.Catalog, Mount(Catalog.Catalog, storyId, Start, style, store), choices)
    ensures Mount(Catalog.Catalog, storyId, Start, style, store).current.Some?
    ensures Play(Catalog.Catalog, Mount(Catalog.Catalog, storyId, Start, style, store), choices).current.Some?
  {
    CatalogIsWellFormed();
    MountStartFound(Catalog.Catalog, storyId, style, store);
    PlayStaysFound(Catalog.Catalog, Mount(Catalog.Catalog, storyId, Start, style, store), choices);
  }

  /** Mounting "story-1" at a segment of that story shows that segment. */
  lemma Story1Shows(segmentId: string, style: Style, store: Store)
    requires segmentId in Story1
    ensures Mount(Catalog.Catalog, "story-1", segmentId, style, store).current == Some(Display(Story1[segmentId], style))
  {
    CatalogLookup1();
  }

  /**
   * Opening "story-1" at "start" offers choice-1 and choice-2; taking
   * choice-1 leads to "dark-path" with ["choice-1"] recorded.
   */
  lemma Story1Opening(style: Style, store: Store)
    ensures var s := Mount(Catalog.Catalog, "story-1", "start", style, store);
      && s.current.Some?
      && |s.current.value.choices| == 2
      && s.current.value.choices[0].id == "choice-1"
      && s.current.value.choices[1].id == "choice-2"
      && Choose(Catalog.Catalog, s, s.current.value.choices[0]).current.Some?
      && Choose(Catalog.Catalog, s, s.current.value.choices[0]).current.value.id == "dark-path"
      && Choose(Catalog.Catalog, s, s.current.value.choices[0]).userChoices == ["choice-1"]
  {
    Story1StartChoices();
    Story1SegmentDarkPath();
    Story1Shows("start", style, store);
    var s := Mount(Catalog.Catalog, "story-1", "start", style, store);
    var c := s.current.value.choices[0];
    assert c.nextSegmentId == "dark-path";
    CatalogLookup1();
    assert Choose(Catalog.Catalog, s, c).current == Some(Display(Story1["dark-path"], style));
  }
}

=== FILE: storage.dfy ===
/**
 * The browser's key-value storage as the story components use it: a map
 * from string keys to string values, with one progress key and one
 * completion key per story id.
 */
module Storage {
  import opened Wrappers

  /** `localStorage`: string keys to string values. */
  type Store = map<string, string>

  /** `localStorage.getItem(key)`: the stored value, or `None` for `null`. */
  function Get(store: Store, key: string): (r: Option<string>)
    ensures r.Some? <==> key in store
    ensures r.Some? ==> r.value == store[key]
  {
    if key in store then Some(store[key]) else None
  }

  const ProgressPrefix: string := "story-progress-"
  const CompletedPrefix: string := "story-completed-"

  /** The key holding a story's saved segment id. */
  function ProgressKey(storyId: string): string {
    ProgressPrefix + storyId
  }

  /** The key holding a story's completion flag. */
  function CompletedKey(storyId: string): string {
    CompletedPrefix + storyId
  }

  /** A story counts as completed exactly when its flag is the string "true". */
  predicate IsCompleted(store: Store, storyId: string)
    ensures IsCompleted(store, storyId) <==> CompletedKey(storyId) in store && store[CompletedKey(storyId)] == "true"
  {
    Get(store, CompletedKey(storyId)) == Some("true")
  }

  /**
   * Keys are per story and the two prefixes differ, so no two stories share
   * a key and a progress key is never a completion key.
   */
  lemma KeysDistinct(a: string, b: string)
    ensures ProgressKey(a) != CompletedKey(b)
    ensures ProgressKey(a) == ProgressKey(b) <==> a == b
    ensures CompletedKey(a) == CompletedKey(b) <==> a == b
  {
    assert ProgressKey(a)[6] == 'p' && CompletedKey(b)[6] == 'c';
    if ProgressKey(a) == ProgressKey(b) {
      assert a == ProgressKey(a)[|ProgressPrefix|..];
      assert b == ProgressKey(b)[|ProgressPrefix|..];
    }
    if CompletedKey(a) == CompletedKey(b) {
      assert a == CompletedKey(a)[|CompletedPrefix|..];
      assert b == CompletedKey(b)[|CompletedPrefix|..];
    }
  }

  /** The two stores agree on every key but `keys`. */
  ghost predicate SameExcept(before: Store, after: Store, keys: set<string>) {
    forall k :: k !in keys ==> Get(before, k) == Get(after, k)
  }

  /** The keys a story owns. */
  function StoryKeys(storyId: string): set<string> {
    {ProgressKey(storyId), CompletedKey(storyId)}
  }

  /** A change confined to one story's keys leaves every other story's keys alone. */
  lemma OtherStoriesUntouched(before: Store, after: Store, storyId: string, other: string)
    requires SameExcept(before, after, StoryKeys(storyId)) && other != storyId
    ensures Get(before, ProgressKey(other)) == Get(after, ProgressKey(other))
    ensures Get(before, CompletedKey(other)) == Get(after, CompletedKey(other))
  {
    KeysDistinct(other, storyId);
    KeysDistinct(storyId, other);
  }
}

=== FILE: story_card.dfy ===
/**
 * The story card of StoryCard.tsx: it reads the completion flag, opens the
 * story only when it is not completed, and offers "Start Over" with a
 * confirmation popup for a completed story.
 */
module Card {
  import opened Wrappers
  import opened Storage
  import opened Catalog
  import opened Narrative
  import opened Reader
  import opened Interface

  /** A card for one story id, with the start-over popup open or closed. */
  datatype Card = Card(id: string, popup: bool)

  /** Where a click sends the browser. */
  datatype Nav = Stay | GoTo(path: string)

  /** The route of a story's page. */
  function StoryPath(id: string): string {
    "/story/" + id
  }

  /** `handleCardClick`: only a card whose story is not completed opens it. */
  function ClickCard(c: Card, store: Store): (r: Nav)
    ensures r.GoTo? <==> !IsCompleted(store, c.id)
    ensures r.GoTo? ==> r.path == StoryPath(c.id)
  {
    if !IsCompleted(store, c.id) then GoTo(StoryPath(c.id)) else Stay
  }

  /** The effect of a card action on the card, the store and the browser. */
  datatype CardStep = CardStep(card: Card, store: Store, nav: Nav)

  /**
   * The "Start Over" button, shown only on a completed card: it opens the
   * popup and stops the click from reaching the card, so nothing navigates
   * and storage is not touched.
   */
  function ClickStartOver(c: Card, store: Store): (r: CardStep)
    ensures r.card.id == c.id && r.card.popup
    ensures r.store == store && r.nav == Stay
  {
    CardStep(c.(popup := true), store, Stay)
  }

  /**
   * `handleStartOverConfirm`: removes the completion flag only (saved
   * progress stays), opens the story and closes the popup.
   */
  function ConfirmStartOver(c: Card, store: Store): (r: CardStep)
    ensures !IsCompleted(r.store, c.id) && CompletedKey(c.id) !in r.store
    ensures SameExcept(store, r.store, {CompletedKey(c.id)})
    ensures r.nav == GoTo(StoryPath(c.id)) && r.card == c.(popup := false)
  {
    CardStep(c.(popup := false), store - {CompletedKey(c.id)}, GoTo(StoryPath(c.id)))
  }

  /** `handleStartOverCancel`: closes the popup and does nothing else. */
  function CancelStartOver(c: Card, store: Store): (r: CardStep)
    ensures r.card.id == c.id && !r.card.popup
    ensures r.store == store && r.nav == Stay
  {
    CardStep(c.(popup := false), store, Stay)
  }

  /**
   * The popup protocol on a card: opening and cancelling leaves the card as
   * it was with the popup closed and storage untouched; confirming from the
   * open popup is the same as confirming at all. The popup's buttons sit
   * inside the card, so their clicks also reach `handleCardClick`, which
   * judges by the store the card was rendered with and, the card being
   * completed, navigates nowhere of its own.
   */
  lemma StartOverPopup(c: Card, store: Store)
    ensures var popupOpen := ClickStartOver(c, store);
      && CancelStartOver(popupOpen.card, popupOpen.store).card == c.(popup := false)
      && CancelStartOver(popupOpen.card, popupOpen.store).store == store
      && ConfirmStartOver(popupOpen.card, popupOpen.store) == ConfirmStartOver(c, store)
    ensures IsCompleted(store, c.id) ==>
      var popupOpen := ClickStartOver(c, store);
      && ClickCard(CancelStartOver(popupOpen.card, popupOpen.store).card, store) == Stay
      && ClickCard(ConfirmStartOver(popupOpen.card, popupOpen.store).card, store) == Stay
  {
  }

  /** Confirming a start-over keeps the story's saved progress as it was. */
  lemma StartOverKeepsProgress(c: Card, store: Store)
    ensures Get(ConfirmStartOver(c, store).store, ProgressKey(c.id)) == Get(store, ProgressKey(c.id))
  {
    KeysDistinct(c.id, c.id);
  }

  /**
   * Finishing a story closes its card; starting over then reopens it, and
   * because finishing removed the saved progress the page opens a fresh,
   * uncompleted reader at "start".
   */
  lemma RestartAfterFinish(stories: Stories, p: Page, store: Store, style: Style)
    requires p.param.Some? && p.param.value != "" && p.reader.storyId == p.param.value
    ensures var id := p.param.value;
      var f := FinishStory(p, store);
      var restart := ConfirmStartOver(Card(id, true), f.store);
      var reopened := Open(stories, Some(id), style, restart.store);
      && ClickCard(Card(id, false), f.store) == Stay
      && ClickCard(Card(id, false), restart.store) == GoTo(StoryPath(id))
      && reopened.reader == Mount(stories, id, Start, style, restart.store)
      && !reopened.reader.completed
      && reopened.reader.userChoices == []
  {
    var id := p.param.value;
    FinishStoryStores(p, store);
    KeysDistinct(id, id);
  }

  /** In a well-formed catalog a restarted story opens on a segment, never on the not-found view. */
  lemma RestartedStoryFound(stories: Stories, p: Page, store: Store, style: Style)
    requires CatalogWellFormed(stories)
    requires p.param.Some? && p.param.value != "" && p.param.value in stories && p.reader.storyId == p.param.value
    ensures var id := p.param.value;
      var restart := ConfirmStartOver(Card(id, true), FinishStory(p, store).store);
      Open(stories, Some(id), style, restart.store).reader.current.Some?
  {
    var id := p.param.value;
    RestartAfterFinish(stories, p, store, style);
    var restart := ConfirmStartOver(Card(id, true), FinishStory(p, store).store);
    MountStartFound(stories, id, style, restart.store);
  }
}

=== FILE: story_interface.dfy ===
/**
 * The story page of StoryInterface.tsx: it reads saved progress when it
 * mounts, opens a reader at that segment or at "start", saves progress on
 * request, and clears saved progress when the reader reports completion.
 * Navigation and toasts are left out; storage is an explicit `Store`.
 */
module Interface {
  import opened Wrappers
  import opened Storage
  import opened Catalog
  import opened Narrative
  import opened Reader

  /** The reader's story id: the route parameter, or "default-story" when it is missing or empty. */
  function ReaderStoryId(param: Option<string>): (r: string)
    ensures param.Some? && param.value != "" ==> r == param.value
    ensures param.None? || param.value == "" ==> r == "default-story"
  {
    if param.Some? && param.value != "" then param.value else "default-story"
  }

  /** The id as the page's own key templates render it: a missing parameter prints as "undefined". */
  function KeyStoryId(param: Option<string>): (r: string)
    ensures param.Some? ==> r == param.value
    ensures param.None? ==> ProgressKey(r) == "story-progress-undefined"
    ensures param.None? || param.value == "" ==> r != ReaderStoryId(param)
  {
    if param.Some? then param.value else "undefined"
  }

  /** Saved progress read at mount; an empty stored value counts as none. */
  function SavedProgress(store: Store, param: Option<string>): (r: Option<string>)
    ensures r.Some? <==> ProgressKey(KeyStoryId(param)) in store && store[ProgressKey(KeyStoryId(param))] != ""
    ensures r.Some? ==> r.value == store[ProgressKey(KeyStoryId(param))]
  {
    var saved := Get(store, ProgressKey(KeyStoryId(param)));
    if saved.Some? && saved.value != "" then saved else None
  }

  /** `userProgress || "start"`: the saved segment, else the entry segment. */
  function ProgressOrStart(userProgress: Option<string>): (r: string)
    ensures userProgress.Some? && userProgress.value != "" ==> r == userProgress.value
    ensures userProgress.None? || userProgress.value == "" ==> r == Start
  {
    if userProgress.Some? && userProgress.value != "" then userProgress.value else Start
  }

  /** The page: its route parameter, the progress it loaded at mount, and its reader. */
  datatype Page = Page(param: Option<string>, userProgress: Option<string>, reader: Session)

  /**
   * Opening the page for a route parameter: the progress is read under the
   * key the page's templates render (`story-progress-undefined` for a
   * missing parameter), while the reader mounts on "default-story" then;
   * the reader starts at the stored progress when it is non-empty, else at
   * "start", and is completed exactly when its own story's flag is "true".
   */
  function Open(stories: Stories, param: Option<string>, style: Style, store: Store): (p: Page)
    ensures p.param == param && p.reader.style == style && p.reader.userChoices == []
    ensures p.userProgress.Some? <==>
      ProgressKey(KeyStoryId(param)) in store && store[ProgressKey(KeyStoryId(param))] != ""
    ensures p.userProgress.Some? ==> p.userProgress.value == store[ProgressKey(KeyStoryId(param))]
    ensures param.Some? && param.value != "" ==> p.reader.storyId == param.value
    ensures param.None? ==>
      && p.reader.storyId == "default-story"
      && (p.userProgress.Some? <==> "story-progress-undefined" in store && store["story-progress-undefined"] != "")
    ensures p.reader.completed <==> Get(store, CompletedKey(p.reader.storyId)) == Some("true")
    ensures var at := if p.userProgress.Some? then p.userProgress.value else Start;
      && (p.reader.current.None? <==> p.reader.storyId !in stories || at !in stories[p.reader.storyId])
      && (p.reader.current.Some? ==> p.reader.current.value == Display(stories[p.reader.storyId][at], style))
  {
    var progress := SavedProgress(store, param);
    Page(param, progress, Mount(stories, ReaderStoryId(param), ProgressOrStart(progress), style, store))
  }

  /**
   * `handleSaveProgress`: stores the progress loaded at mount, or "start",
   * under the page's progress key and touches nothing else.
   */
  function SaveProgress(p: Page, store: Store): (r: Store)
    ensures Get(r, ProgressKey(KeyStoryId(p.param))) == Some(ProgressOrStart(p.userProgress))
    ensures SameExcept(store, r, {ProgressKey(KeyStoryId(p.param))})
  {
    store[ProgressKey(KeyStoryId(p.param)) := ProgressOrStart(p.userProgress)]
  }

  /**
   * Saving never records where the reader is now, only what was loaded at
   * mount, so saving again stores the same value.
   */
  lemma SaveIgnoresReader(p: Page, reader: Session, store: Store)
    ensures SaveProgress(p.(reader := reader), store) == SaveProgress(p, store)
    ensures SaveProgress(p, SaveProgress(p, store)) == SaveProgress(p, store)
  {
  }

  /** `handleStoryComplete`: removes the page's progress key and nothing else. */
  function ClearProgress(p: Page, store: Store): (r: Store)
    ensures ProgressKey(KeyStoryId(p.param)) !in r
    ensures SameExcept(store, r, {ProgressKey(KeyStoryId(p.param))})
  {
    store - {ProgressKey(KeyStoryId(p.param))}
  }

  /** What the page and its reader leave behind when a story is finished. */
  datatype Finish = Finish(reader: Session, store: Store, payload: seq<string>)

  /**
   * The reader completes, then its callback clears the page's progress: the
   * reader's completion flag is set, the page's progress key is gone, and
   * those are the only two keys that change.
   */
  function FinishStory(p: Page, store: Store): (f: Finish)
    ensures f.reader == p.reader.(completed := true) && f.payload == p.reader.userChoices
    ensures IsCompleted(f.store, p.reader.storyId)
    ensures ProgressKey(KeyStoryId(p.param)) !in f.store
    ensures SameExcept(store, f.store, {CompletedKey(p.reader.storyId), ProgressKey(KeyStoryId(p.param))})
  {
    var done := Complete(p.reader, store);
    KeysDistinct(KeyStoryId(p.param), p.reader.storyId);
    Finish(done.session, ClearProgress(p, done.store), done.payload)
  }

  /**
   * For a page on a story id whose reader reads that story, finishing
   * leaves the completion flag "true" and the progress key absent, changes
   * no other key, and reports the reader's choices.
   */
  lemma FinishStoryStores(p: Page, store: Store)
    requires p.param.Some? && p.param.value != "" && p.reader.storyId == p.param.value
    ensures var f := FinishStory(p, store);
      && IsCompleted(f.store, p.param.value)
      && ProgressKey(p.param.value) !in f.store
      && SameExcept(store, f.store, StoryKeys(p.param.value))
      && f.payload == p.reader.userChoices
      && f.reader.completed
  {
    KeysDistinct(p.param.value, p.param.value);
  }

  /**
   * The page resumes at the stored progress when it is present and
   * non-empty, and at "start" otherwise.
   */
  lemma ResumeAtSaved(stories: Stories, storyId: string, style: Style, store: Store)
    requires storyId != ""
    ensures var p := Open(stories, Some(storyId), style, store);
      if ProgressKey(storyId) in store && store[ProgressKey(storyId)] != "" then
        p.reader == Mount(stories, storyId, store[ProgressKey(storyId)], style, store)
      else
        p.reader == Mount(stories, storyId, Start, style, store)
  {
  }

  /**
   * A missing or empty route parameter opens "default-story", which shows
   * the not-found view whenever the catalog has no such story, as the
   * application's catalog does not (`Reader.DefaultStoryNotInCatalog`).
   */
  lemma MissingParamNotFound(stories: Stories, style: Style, store: Store)
    requires "default-story" !in stories
    ensures Open(stories, None, style, store).reader.current.None?
    ensures Open(stories, Some(""), style, store).reader.current.None?
  {
  }
}

=== FILE: story_teller.dfy ===
/**
 * The chat storyteller of AIStoryTeller.tsx: the chat-history protocol
 * around one story request, the theme tag read from and stripped out of
 * the reply, and the play/pause flag of the narration. The request itself
 * is an input: its outcome is a `Reply`.
 */
module StoryTeller {
  import opened Wrappers
  import opened Text
  import opened Catalog

  datatype Role = User | Ai

  /** One chat bubble; user entries carry no theme. */
  datatype Entry = Entry(role: Role, message: string, theme: Option<Theme>)

  /**
   * The widget state: the input box, the history, the loading flag, whether
   * narration is playing and whether there is an utterance to control.
   */
  datatype Chat = Chat(message: string, history: seq<Entry>, loading: bool, speaking: bool, hasUtterance: bool)

  /** How the request went, as seen after `fetch` returns or throws. */
  datatype Reply =
    | NotOk(statusText: string)
    | Thrown(reason: string)
    | Replied(content: Option<string>)

  const Apology: string := "Sorry, I couldn’t generate a story right now."
  const KeyPlaceholder: string := "your-api-key-here"
  const KeyMissing: string := "GROQ_API_KEY is not set. Please configure it in your .env file."

  const MedievalTag: string := "Theme: medieval"
  const FuturisticTag: string := "Theme: futuristic"
  const HorrorTag: string := "Theme: horror"

  /** The error a missing or placeholder API key raises, if any. */
  function KeyError(apiKey: Option<string>): (r: Option<string>)
    ensures r.Some? <==> apiKey.None? || apiKey.value == "" || apiKey.value == KeyPlaceholder
    ensures r.Some? ==> r.value == KeyMissing
  {
    var key := if apiKey.Some? && apiKey.value != "" then apiKey.value else KeyPlaceholder;
    if key == "" || key == KeyPlaceholder then Some(KeyMissing) else None
  }

  /**
   * The theme of a reply: futuristic if it mentions "Theme: futuristic",
   * else horror if it mentions "Theme: horror", else medieval.
   */
  function SelectTheme(reply: string): (t: Theme)
    ensures t == Futuristic <==> Contains(reply, FuturisticTag)
    ensures t == Horror <==> !Contains(reply, FuturisticTag) && Contains(reply, HorrorTag)
    ensures t == Medieval <==> !Contains(reply, FuturisticTag) && !Contains(reply, HorrorTag)
  {
    if Contains(reply, FuturisticTag) then Futuristic
    else if Contains(reply, HorrorTag) then Horror
    else Medieval
  }

  /** The length of a theme-tag match starting at `i` (with one following newline), or 0. */
  function TagLengthAt(s: string, i: nat): (n: nat)
    ensures n > 0 ==> i + n <= |s|
    ensures n > 0 <==> OccursAt(s, MedievalTag, i) || OccursAt(s, FuturisticTag, i) || OccursAt(s, HorrorTag, i)
  {
    var t :=
      if OccursAt(s, MedievalTag, i) then |MedievalTag|
      else if OccursAt(s, FuturisticTag, i) then |FuturisticTag|
      else if OccursAt(s, HorrorTag, i) then |HorrorTag|
      else 0;
    if t > 0 && i + t < |s| && s[i + t] == '\n' then t + 1 else t
  }

  /** The leftmost theme-tag match at or after `from`: its start and length. */
  function FindTag(s: string, from: nat): (r: Option<(nat, nat)>)
    ensures r.None? ==> forall j :: from <= j <= |s| ==> TagLengthAt(s, j) == 0
    ensures r.Some? ==>
      && from <= r.value.0
      && r.value.1 == TagLengthAt(s, r.value.0) > 0
      && forall j :: from <= j < r.value.0 ==> TagLengthAt(s, j) == 0
    decreases |s| + 1 - from
  {
    if from > |s| then None
    else if TagLengthAt(s, from) > 0 then Some((from, TagLengthAt(s, from)))
    else FindTag(s, from + 1)
  }

  /** `s` mentions one of the three theme tags. */
  predicate HasTag(s: string) {
    Contains(s, MedievalTag) || Contains(s, FuturisticTag) || Contains(s, HorrorTag)
  }

  /** A tag match is found from the start exactly when the text mentions a tag. */
  lemma FindTagHas(s: string)
    ensures FindTag(s, 0).Some? <==> HasTag(s)
  {
    if HasTag(s) {
      var i: nat :| i <= |s| && (OccursAt(s, MedievalTag, i) || OccursAt(s, FuturisticTag, i) || OccursAt(s, HorrorTag, i));
      assert TagLengthAt(s, i) > 0;
    } else {
      forall j | 0 <= j <= |s| ensures TagLengthAt(s, j) == 0 {
        assert !OccursAt(s, MedievalTag, j) && !OccursAt(s, FuturisticTag, j) && !OccursAt(s, HorrorTag, j);
      }
    }
  }

  /**
   * `r` is `s` with its leftmost tag match cut out: a non-empty match at
   * `i`, no match before it, and everything else kept in order.
   */
  predicate CutsLeftmostTag(s: string, r: string) {
    exists i :: (0 <= i <= |r| && TagLengthAt(s, i) == |s| - |r| > 0
      && r == s[..i] + s[i + (|s| - |r|)..]
      && forall j :: 0 <= j < i ==> TagLengthAt(s, j) == 0)
  }

  /** Cutting the match found at `i` is cutting the leftmost tag match. */
  lemma CutAt(s: string, i: nat, n: nat)
    requires i + n <= |s| && n == TagLengthAt(s, i) > 0
    requires forall j :: 0 <= j < i ==> TagLengthAt(s, j) == 0
    ensures CutsLeftmostTag(s, s[..i] + s[i + n..])
  {
    var r := s[..i] + s[i + n..];
    assert |s| - |r| == n;
  }

  /**
   * `replace(/Theme: (medieval|futuristic|horror)\n?/, "")`: a text with no
   * tag is kept; otherwise the leftmost tag match (with one following
   * newline) is cut out and the rest is kept.
   */
  function StripTag(s: string): (r: string)
    ensures |r| <= |s|
    ensures !HasTag(s) ==> r == s
    ensures HasTag(s) ==> CutsLeftmostTag(s, r)
  {
    FindTagHas(s);
    match FindTag(s, 0)
    case None => s
    case Some((i, n)) =>
      CutAt(s, i, n);
      s[..i] + s[i + n..]
  }

  /**
   * Stripping changes a reply exactly when it carries a tag, and then
   * removes one tag (and at most one newline after it): between 13 and 18
   * characters.
   */
  lemma StripTagChanges(s: string)
    ensures StripTag(s) == s <==> !HasTag(s)
    ensures HasTag(s) ==> |HorrorTag| <= |s| - |StripTag(s)| <= |FuturisticTag| + 1
  {
    FindTagHas(s);
  }

  /**
   * The text shown for a successful reply: the first tag removed, then
   * trimmed. A reply without a tag is only trimmed; one with a tag loses at
   * least the tag's length.
   */
  function CleanReply(reply: string): (r: string)
    ensures !HasTag(reply) ==> r == Trim(reply)
    ensures HasTag(reply) ==> |r| <= |reply| - |HorrorTag|
    ensures |r| > 0 ==> !IsWhitespace(r[0]) && !IsWhitespace(r[|r| - 1])
  {
    StripTagChanges(reply);
    Trim(StripTag(reply))
  }

  /** The bubble shown when the request fails, embedding the error message. */
  function ErrorEntry(error: string): Entry {
    Entry(Ai, "Sorry, I couldn’t generate a story right now. Error: " + error + ". Try again later!", Some(Medieval))
  }

  /**
   * The error a request raised, if any: the key check comes first, then a
   * bad status, then anything thrown; only a reply raises none.
   */
  function RequestError(apiKey: Option<string>, reply: Reply): (r: Option<string>)
    ensures KeyError(apiKey).Some? ==> r == Some(KeyMissing)
    ensures KeyError(apiKey).None? ==> (r.None? <==> reply.Replied?)
    ensures KeyError(apiKey).None? && reply.NotOk? ==> r == Some("Failed to fetch story from Grok API: " + reply.statusText)
    ensures KeyError(apiKey).None? && reply.Thrown? ==> r == Some(reply.reason)
  {
    if KeyError(apiKey).Some? then KeyError(apiKey)
    else match reply
      case NotOk(status) => Some("Failed to fetch story from Grok API: " + status)
      case Thrown(reason) => Some(reason)
      case Replied(_) => None
  }

  /** The reply text: the first choice's content, or the apology when it is missing or empty. */
  function StoryText(reply: Reply): (r: string)
    ensures |r| > 0
    ensures reply.Replied? && reply.content.Some? && reply.content.value != "" ==> r == reply.content.value
    ensures reply.Replied? && (reply.content.None? || reply.content.value == "") ==> r == Apology
  {
    if reply.Replied? && reply.content.Some? && reply.content.value != "" then reply.content.value
    else Apology
  }

  /**
   * The ai bubble a request ends in: an error bubble, themed medieval and
   * embedding the error, or the cleaned reply themed by its own tags.
   */
  function Answer(apiKey: Option<string>, reply: Reply): (e: Entry)
    ensures e.role == Ai && e.theme.Some?
    ensures RequestError(apiKey, reply).Some? ==>
      e.theme == Some(Medieval) && Contains(e.message, RequestError(apiKey, reply).value)
    ensures RequestError(apiKey, reply).None? ==>
      e.theme == Some(SelectTheme(StoryText(reply))) && |e.message| <= |StoryText(reply)|
  {
    var error := RequestError(apiKey, reply);
    if error.Some? then
      ErrorEntryEmbeds(error.value);
      ErrorEntry(error.value)
    else Entry(Ai, CleanReply(StoryText(reply)), Some(SelectTheme(StoryText(reply))))
  }

  /**
   * Narration starts for a successful reply whose cleaned text is not the
   * apology; so never without speech, after an error, or for a missing reply.
   */
  function Narrates(apiKey: Option<string>, reply: Reply, speechAvailable: bool): (b: bool)
    ensures b ==> speechAvailable && KeyError(apiKey).None? && reply.Replied?
    ensures b ==> reply.content.Some? && reply.content.value != ""
    ensures b ==> CleanReply(StoryText(reply)) != Apology && Answer(apiKey, reply).message != Apology
  {
    ApologyClean();
    RequestError(apiKey, reply).None? && speechAvailable && CleanReply(StoryText(reply)) != Apology
  }

  /**
   * `generateStory`: a blank input is ignored. Otherwise the user entry is
   * appended, then exactly one ai entry (the cleaned, themed reply, or the
   * error bubble), narration starts when it should, and the input is cleared.
   */
  function Generate(c: Chat, apiKey: Option<string>, reply: Reply, speechAvailable: bool): (r: Chat)
    ensures IsBlank(c.message) ==> r == c
    ensures !IsBlank(c.message) ==>
      && r.history == c.history + [Entry(User, c.message, None), Answer(apiKey, reply)]
      && r.message == "" && !r.loading
      && (r.speaking <==> Narrates(apiKey, reply, speechAvailable) || c.speaking)
  {
    if Trim(c.message) == [] then c
    else
      var speak := Narrates(apiKey, reply, speechAvailable);
      c.(message := "",
         history := c.history + [Entry(User, c.message, None), Answer(apiKey, reply)],
         loading := false,
         speaking := speak || c.speaking,
         hasUtterance := speak || c.hasUtterance)
  }

  /**
   * A configured request answered with a text that carries no theme tag,
   * no surrounding whitespace and is not the apology is shown verbatim and,
   * where speech is available, read aloud.
   */
  lemma NarratesPlainReply(apiKey: Option<string>, t: string, speechAvailable: bool)
    requires speechAvailable && KeyError(apiKey).None?
    requires t != "" && !HasTag(t) && !IsWhitespace(t[0]) && !IsWhitespace(t[|t| - 1]) && t != Apology
    ensures Answer(apiKey, Replied(Some(t))).message == t
    ensures Narrates(apiKey, Replied(Some(t)), speechAvailable)
  {
    TrimKeeps(t);
  }

  /** The text of an error bubble contains the error message. */
  lemma ErrorEntryEmbeds(error: string)
    ensures ErrorEntry(error).theme == Some(Medieval)
    ensures Contains(ErrorEntry(error).message, error)
  {
    var prefix := "Sorry, I couldn’t generate a story right now. Error: ";
    var m := ErrorEntry(error).message;
    assert m[|prefix|..|prefix| + |error|] == error;
    assert OccursAt(m, error, |prefix|);
  }

  /**
   * The failure paths (missing key, bad status, thrown error) all end in an
   * error bubble themed medieval that embeds the error; a reply ends in a
   * bubble themed by its tags. The apology carries no tag, so a missing
   * reply shows the apology as is and never starts narration.
   */
  lemma AnswerCases(apiKey: Option<string>, reply: Reply, speechAvailable: bool)
    ensures KeyError(apiKey).Some? ==> Answer(apiKey, reply) == ErrorEntry(KeyMissing)
    ensures RequestError(apiKey, reply).Some? ==>
      Answer(apiKey, reply).theme == Some(Medieval) &&
      Contains(Answer(apiKey, reply).message, RequestError(apiKey, reply).value)
    ensures KeyError(apiKey).None? && reply.NotOk? ==>
      Answer(apiKey, reply) == ErrorEntry("Failed to fetch story from Grok API: " + reply.statusText)
    ensures KeyError(apiKey).None? && reply.Replied? && reply.content.Some? && reply.content.value != "" ==>
      Answer(apiKey, reply) == Entry(Ai, CleanReply(reply.content.value), Some(SelectTheme(reply.content.value)))
    ensures KeyError(apiKey).None? && reply.Replied? && (reply.content.None? || reply.content.value == "") ==>
      Answer(apiKey, reply).message == Apology && !Narrates(apiKey, reply, speechAvailable)
  {
    if KeyError(apiKey).Some? {
      ErrorEntryEmbeds(KeyMissing);
    } else if !reply.Replied? {
      ErrorEntryEmbeds(RequestError(apiKey, reply).value);
    } else if reply.content.Some? && reply.content.value != "" {
      assert StoryText(reply) == reply.content.value;
    } else {
      assert StoryText(reply) == Apology;
      ApologyClean();
    }
  }

  /** The apology has no tag and no surrounding whitespace, so cleaning keeps it. */
  lemma ApologyClean()
    ensures CleanReply(Apology) == Apology
  {
    ApologyLetters();
    FirstCharAbsent(Apology, MedievalTag);
    FirstCharAbsent(Apology, FuturisticTag);
    FirstCharAbsent(Apology, HorrorTag);
    StripTagChanges(Apology);
    TrimKeeps(Apology);
  }

  /** The apology holds no 'T' and starts and ends with a visible character. */
  lemma ApologyLetters()
    ensures 'T' !in Apology
    ensures |Apology| > 0 && Apology[0] == 'S' && Apology[|Apology| - 1] == '.'
  {
    // The curly apostrophe is split out so that each piece is plain enough to inspect.
    var head, mark, tail := "Sorry, I couldn", "’", "t generate a story right now.";
    assert Apology == head + mark + tail;
    NoLetterT(head, mark, tail);
  }

  lemma NoLetterT(head: string, mark: string, tail: string)
    requires head == "Sorry, I couldn" && mark == "’" && tail == "t generate a story right now."
    ensures 'T' !in head + mark + tail
    ensures (head + mark + tail)[0] == 'S' && (head + mark + tail)[|head + mark + tail| - 1] == '.'
  {
    assert 'T' !in head && 'T' !in tail && mark[0] != 'T';
    assert head[0] == 'S' && tail[|tail| - 1] == '.';
  }

  /** `toggleSpeech`: nothing without an utterance, otherwise play/pause flips. */
  function ToggleSpeech(c: Chat): (r: Chat)
    ensures !c.hasUtterance ==> r == c
    ensures c.hasUtterance ==> r == c.(speaking := !c.speaking)
  {
    if !c.hasUtterance then c else c.(speaking := !c.speaking)
  }

  /** Toggling twice restores the narration state. */
  lemma ToggleSpeechTwice(c: Chat)
    ensures ToggleSpeech(ToggleSpeech(c)) == c
  {
  }
}

=== FILE: text.dfy ===
/**
 * Literal string search and rewriting over `seq<char>`: the `includes`,
 * `startsWith`, global `replace` and `trim` operations the components use.
 */
module Text {

  /** `p` is a prefix of `s` (JavaScript `s.startsWith(p)`). */
  predicate IsPrefix(p: string, s: string) {
    |p| <= |s| && s[..|p|] == p
  }

  /** `p` occurs in `s` starting at index `i`. */
  predicate OccursAt(s: string, p: string, i: nat) {
    i + |p| <= |s| && s[i..i + |p|] == p
  }

  /** `p` occurs somewhere in `s` (JavaScript `s.includes(p)`). */
  predicate Contains(s: string, p: string) {
    exists i: nat | i <= |s| :: OccursAt(s, p, i)
  }

  /**
   * Global literal replacement, as `s.replace(/pat/g, rep)` does it: the
   * string is scanned left to right, each leftmost occurrence of `pat` is
   * replaced by `rep`, and scanning resumes after the replaced occurrence, so
   * occurrences never overlap and replacement text is never rescanned.
   */
  function ReplaceAll(s: string, pat: string, rep: string): (r: string)
    requires |pat| > 0
    ensures |rep| <= |pat| ==> |r| <= |s|
    ensures |rep| >= |pat| ==> |r| >= |s|
    decreases |s|
  {
    if |s| == 0 then []
    else if IsPrefix(pat, s) then rep + ReplaceAll(s[|pat|..], pat, rep)
    else [s[0]] + ReplaceAll(s[1..], pat, rep)
  }

  /** The number of replacements `ReplaceAll(s, pat, _)` performs. */
  function Count(s: string, pat: string): nat
    requires |pat| > 0
    decreases |s|
  {
    if |s| == 0 then 0
    else if IsPrefix(pat, s) then 1 + Count(s[|pat|..], pat)
    else Count(s[1..], pat)
  }

  /**
   * `rep` cannot take part in an occurrence of `q` once spliced into a
   * string: `q` cannot start inside `rep` (its first character is not in
   * `rep`) and cannot run into `rep` from the left (the first character of
   * `rep` is not in the rest of `q`).
   */
  predicate Separated(rep: string, q: string) {
    |rep| > 0 && |q| > 0 && q[0] !in rep && rep[0] !in q[1..]
  }

  /** Each replacement changes the length by `|rep| - |pat|`. */
  lemma {:induction false} ReplaceAllLength(s: string, pat: string, rep: string)
    requires |pat| > 0
    ensures |ReplaceAll(s, pat, rep)| == |s| + Count(s, pat) * (|rep| - |pat|)
    decreases |s|
  {
    if |s| > 0 {
      var d := |rep| - |pat|;
      if IsPrefix(pat, s) {
        var rest := s[|pat|..];
        ReplaceAllLength(rest, pat, rep);
        var c := Count(rest, pat);
        assert ReplaceAll(s, pat, rep) == rep + ReplaceAll(rest, pat, rep);
        assert Count(s, pat) == 1 + c;
        assert |s| == |pat| + |rest|;
        SuccTimes(c, d);
      } else {
        ReplaceAllLength(s[1..], pat, rep);
        assert ReplaceAll(s, pat, rep) == [s[0]] + ReplaceAll(s[1..], pat, rep);
        assert Count(s, pat) == Count(s[1..], pat);
      }
    }
  }

  lemma SuccTimes(c: int, d: int)
    ensures (1 + c) * d == d + c * d
  {
  }

  /** A non-empty prefix is a matching first character followed by a prefix of the rest. */
  lemma PrefixCons(u: string, s: string)
    requires |u| > 0 && |s| > 0
    ensures IsPrefix(u, s) <==> u[0] == s[0] && IsPrefix(u[1..], s[1..])
  {
    if |u| <= |s| {
      assert s[..|u|] == [s[0]] + s[1..][..|u| - 1];
      assert u == [u[0]] + u[1..];
    }
  }

  /** A string lacking the first character of `p` does not contain `p`. */
  lemma FirstCharAbsent(s: string, p: string)
    requires |p| > 0 && p[0] !in s
    ensures !Contains(s, p)
  {
    forall i: nat | i + |p| <= |s| ensures !OccursAt(s, p, i) {
      assert s[i..i + |p|][0] == s[i];
    }
  }

  /** A suffix of a string without `p` has no `p` either. */
  lemma NotContainsSuffix(s: string, k: nat, p: string)
    requires k <= |s| && !Contains(s, p)
    ensures !Contains(s[k..], p)
  {
    forall i: nat ensures !OccursAt(s[k..], p, i) {
      if i + |p| <= |s| - k {
        assert s[k..][i..i + |p|] == s[k + i..k + i + |p|];
        assert !OccursAt(s, p, k + i);
      }
    }
  }

  /** Prepending one character can only add an occurrence at index 0. */
  lemma NotContainsCons(c: char, t: string, p: string)
    requires !Contains(t, p) && !IsPrefix(p, [c] + t)
    ensures !Contains([c] + t, p)
  {
    forall i: nat ensures !OccursAt([c] + t, p, i) {
      if 0 < i && i + |p| <= |t| + 1 {
        assert ([c] + t)[i..i + |p|] == t[i - 1..i - 1 + |p|];
        assert !OccursAt(t, p, i - 1);
      }
    }
  }

  /** Prepending a block that lacks `p`'s first character adds no occurrence. */
  lemma NotContainsBlock(a: string, t: string, p: string)
    requires |p| > 0 && p[0] !in a && !Contains(t, p)
    ensures !Contains(a + t, p)
  {
    forall i: nat ensures !OccursAt(a + t, p, i) {
      if i < |a| {
        if i + |p| <= |a| + |t| {
          assert (a + t)[i..i + |p|][0] == a[i];
        }
      } else if i + |p| <= |a| + |t| {
        assert (a + t)[i..i + |p|] == t[i - |a|..i - |a| + |p|];
        assert !OccursAt(t, p, i - |a|);
      }
    }
  }

  /**
   * A prefix that does not mention `rep`'s first character cannot be
   * produced by a replacement, so it must already have been a prefix.
   */
  lemma {:induction false} NoPrefixThrough(u: string, s: string, pat: string, rep: string)
    requires |pat| > 0 && |rep| > 0 && rep[0] !in u
    requires !IsPrefix(u, s)
    ensures !IsPrefix(u, ReplaceAll(s, pat, rep))
    decreases |s|
  {
    if |s| > 0 {
      var r := ReplaceAll(s, pat, rep);
      if IsPrefix(pat, s) {
        assert r[0] == rep[0];
      } else {
        var t := ReplaceAll(s[1..], pat, rep);
        assert r == [s[0]] + t;
        PrefixCons(u, s);
        if u[0] == s[0] {
          assert rep[0] !in u[1..];
          NoPrefixThrough(u[1..], s[1..], pat, rep);
        }
        if |r| > 0 {
          PrefixCons(u, r);
        }
      }
    }
  }

  /**
   * Replacing `pat` by a separated `rep` leaves no occurrence of `q` when
   * `q` is `pat` itself or did not occur to begin with: replacements never
   * create new matches.
   */
  lemma {:induction false} NoResidue(s: string, pat: string, rep: string, q: string)
    requires |pat| > 0 && Separated(rep, q)
    requires q == pat || !Contains(s, q)
    ensures !Contains(ReplaceAll(s, pat, rep), q)
    decreases |s|
  {
    if |s| == 0 {
      assert forall i: nat :: !OccursAt([], q, i);
    } else if IsPrefix(pat, s) {
      var rest := s[|pat|..];
      if q != pat {
        NotContainsSuffix(s, |pat|, q);
      }
      NoResidue(rest, pat, rep, q);
      NotContainsBlock(rep, ReplaceAll(rest, pat, rep), q);
    } else {
      var t := ReplaceAll(s[1..], pat, rep);
      if q != pat {
        NotContainsSuffix(s, 1, q);
      }
      NoResidue(s[1..], pat, rep, q);
      assert !IsPrefix(q, s) by {
        if q != pat {
          assert !OccursAt(s, q, 0);
        }
      }
      var r := [s[0]] + t;
      PrefixCons(q, s);
      PrefixCons(q, r);
      if q[0] == s[0] && |q| > 1 {
        NoPrefixThrough(q[1..], s[1..], pat, rep);
      }
      NotContainsCons(s[0], t, q);
    }
  }

  /** Replacing a pattern that does not occur changes nothing. */
  lemma {:induction false} ReplaceAbsent(s: string, pat: string, rep: string)
    requires |pat| > 0 && !Contains(s, pat)
    ensures ReplaceAll(s, pat, rep) == s
    decreases |s|
  {
    if |s| > 0 {
      assert !OccursAt(s, pat, 0);
      NotContainsSuffix(s, 1, pat);
      ReplaceAbsent(s[1..], pat, rep);
      assert [s[0]] + s[1..] == s;
    }
  }

  /**
   * Replacing one character by another character is a pointwise map: every
   * occurrence of `a` becomes `b` and every other character stays.
   */
  lemma {:induction false} ReplaceCharPointwise(s: string, a: char, b: char)
    ensures |ReplaceAll(s, [a], [b])| == |s|
    ensures forall j :: 0 <= j < |s| ==> ReplaceAll(s, [a], [b])[j] == (if s[j] == a then b else s[j])
    decreases |s|
  {
    if |s| > 0 {
      ReplaceCharPointwise(s[1..], a, b);
      var rest := ReplaceAll(s[1..], [a], [b]);
      assert IsPrefix([a], s) <==> s[0] == a;
      assert ReplaceAll(s, [a], [b]) == [if s[0] == a then b else s[0]] + rest;
      assert forall j :: 1 <= j < |s| ==> s[j] == s[1..][j - 1];
    }
  }

  /**
   * The characters JavaScript's `String.prototype.trim` removes: the
   * ECMAScript WhiteSpace and LineTerminator code points.
   */
  predicate IsWhitespace(c: char) {
    var n := c as int;
    || n == 0x09 || n == 0x0A || n == 0x0B || n == 0x0C || n == 0x0D || n == 0x20
    || n == 0xA0 || n == 0x1680 || (0x2000 <= n <= 0x200A) || n == 0x2028 || n == 0x2029
    || n == 0x202F || n == 0x205F || n == 0x3000 || n == 0xFEFF
  }

  /** Every character of `s` is whitespace (the empty string included). */
  predicate IsBlank(s: string) {
    forall i :: 0 <= i < |s| ==> IsWhitespace(s[i])
  }

  /** A concatenation is blank exactly when both parts are. */
  lemma BlankAppend(a: string, b: string)
    ensures IsBlank(a + b) <==> IsBlank(a) && IsBlank(b)
  {
    if IsBlank(a + b) {
      forall i | 0 <= i < |a| ensures IsWhitespace(a[i]) {
        assert (a + b)[i] == a[i];
      }
      forall i | 0 <= i < |b| ensures IsWhitespace(b[i]) {
        assert (a + b)[|a| + i] == b[i];
      }
    }
  }

  /** `s` without its leading whitespace. */
  function TrimStart(s: string): (r: string)
    ensures |r| <= |s| && r == s[|s| - |r|..]
    ensures IsBlank(s[..|s| - |r|])
    ensures |r| > 0 ==> !IsWhitespace(r[0])
    decreases |s|
  {
    if |s| > 0 && IsWhitespace(s[0]) then TrimStart(s[1..]) else s
  }

  /** `s` without its trailing whitespace. */
  function TrimEnd(s: string): (r: string)
    ensures |r| <= |s| && r == s[..|r|]
    ensures IsBlank(s[|r|..])
    ensures |r| > 0 ==> !IsWhitespace(r[|r| - 1])
    decreases |s|
  {
    if |s| > 0 && IsWhitespace(s[|s| - 1]) then TrimEnd(s[..|s| - 1]) else s
  }

  /** `r` is the slice of `s` left between a blank head and a blank tail. */
  predicate BlankFramed(s: string, r: string) {
    exists i :: 0 <= i <= |s| - |r| && r == s[i..i + |r|] && IsBlank(s[..i]) && IsBlank(s[i + |r|..])
  }

  /**
   * `s.trim()`: leading and trailing whitespace removed. The result is the
   * slice of `s` left between a blank head and a blank tail.
   */
  function Trim(s: string): (r: string)
    ensures |r| <= |s|
    ensures BlankFramed(s, r)
    ensures r == [] <==> IsBlank(s)
    ensures |r| > 0 ==> !IsWhitespace(r[0]) && !IsWhitespace(r[|r| - 1])
  {
    var t := TrimStart(s);
    var r := TrimEnd(t);
    TrimPieces(s, |s| - |t|, t, r);
    r
  }

  /**
   * Cutting a blank head off `s` and a blank tail off the rest leaves a
   * slice of `s` between the two; when the rest starts with a visible
   * character, nothing is left only if `s` is blank.
   */
  lemma TrimPieces(s: string, i: nat, t: string, r: string)
    requires i <= |s| && t == s[i..] && |r| <= |t| && r == t[..|r|]
    requires IsBlank(s[..i]) && IsBlank(t[|r|..])
    requires |t| > 0 ==> !IsWhitespace(t[0])
    requires |r| > 0 ==> !IsWhitespace(r[|r| - 1])
    ensures BlankFramed(s, r)
    ensures r == [] <==> IsBlank(s)
    ensures |r| > 0 ==> !IsWhitespace(r[0]) && !IsWhitespace(r[|r| - 1])
  {
    assert s[i + |r|..] == t[|r|..];
    assert r == s[i..i + |r|];
    if r == [] {
      assert |t| == 0;
      forall k | 0 <= k < |s| ensures IsWhitespace(s[k]) {
        assert s[k] == s[..i][k];
      }
    } else {
      assert r[0] == t[0] == s[i];
    }
  }

  /** A string with no whitespace at either end is its own trim. */
  lemma TrimKeeps(s: string)
    requires |s| > 0 && !IsWhitespace(s[0]) && !IsWhitespace(s[|s| - 1])
    ensures Trim(s) == s
  {
    assert TrimStart(s) == s;
    assert TrimEnd(s) == s;
  }
}

=== FILE: wrappers.dfy ===
/** Option and Result datatypes shared by the model. */
module Wrappers {

  /** A value that may be absent (a JavaScript `null` or `undefined`). */
  datatype Option<+T> = None | Some(value: T) {

    /** The wrapped value, or `default` when there is none. */
    function GetOr(default: T): T {
      match this
      case Some(v) => v
      case None => default
    }
  }

  /** The outcome of an operation that can fail with an error of type E. */
  datatype Result<+R, +E> = Ok(value: R) | Err(error: E)
}
